=== FILE: README.md ===
# Marketplace backend business rules in Dafny

This project models the business rules of an e-commerce marketplace backend: a book marketplace with users, products, carts, wishlists, orders, shipping addresses, an admin dashboard and seller payouts. In the original, each rule is an Express request handler over a document database.

In this model each database collection is a map from document id to record, held in a field of a store class. Each handler is a method on that class. The method changes the maps the way the handler changes the documents, and it returns the handler's status code and message as a `Reply`. Read-only handlers and the rules inside the handlers are functions. Lemmas prove the properties that tie them together.

Modules, one per handler file:

- `Common` (`common.dfy`): optional request fields and JavaScript truthiness (`Given`: absent or `""` is falsy; `GivenNumber`: absent or `0` is falsy), and `Reply`. It also holds the creation-ordered listing `Latest` that every "sorted by `createdAt` descending" query uses, with its proofs.
- `Products` (`products.dfy`): `createProduct`. Covers the image-count and payment-mode validation and how the product record is built.
- `Carts` (`carts.dfy`): `addToCart`, `removeFromCart`, `getCartByUser`. The cart keeps the invariant that no two line items share a product.
- `Wishlists` (`wishlists.dfy`): `addToWishlist`, `removeFromWishlist`, `getWishlistByUser`. A wishlist never holds a product twice.
- `Orders` (`orders.dfy`): `createOrUpdateOrder`, `handleRazorpayWebhook`, `getOrderById`, `getOrderByUser` and `createPaymentWithRazorpay`.
- `Auth` (`auth.dfy`): `register`, `verifyEmail`, `login`, `forgotPassword`, `resetPassword`, `checkUserAuth`, as transitions on a user record.
- `Addresses` (`addresses.dfy`): `createOrUpdateAddressByUserId` and `getAddressByUserId`.
- `Admin` (`admin.dfy`): `getAllOrders`, `updateOrder`, `processSellerPayment`, `getDashboardStats` and the filter built by `getSellerPayment`.

Things outside the model become parameters:

- the id the database gives a new document (`freshId`, required to be unused);
- the clock (`now`);
- random tokens;
- the bcrypt hash the user model's save hook stores (`hashed`) and the password comparison (`matches`);
- the HMAC-SHA256 digest, as an uninterpreted function `hmac(secret, body)` (RFC 2104 HMAC over SHA-256);
- the image host's upload result (`upload`);
- whether an e-mail was delivered (`mailDelivered`).

Sorting by `createdAt` descending is modelled as reverse creation order: the order store keeps a creation log `created`, and both orders agree when the clock does not go backwards.

Behaviour of the code that the model keeps as written:

- `getAddressByUserId` answers with the whole stored user document (controllers/address-controller.ts:101, :107). Nothing is removed from it, so the password hash, the verification token and the reset token and its expiry go out with the addresses. `checkUserAuth` strips those fields first (`Auth.Public`); `Addresses.GetAddressByUserId` states that they are returned.
- The `/dashboard-stats` route is mounted before the authentication and admin guard (routes/admin-routes.ts:8, :11), so the dashboard statistics are public. The other admin routes are behind the guard.
- `getCartByUser` and `getWishlistByUser` answer a missing document with status 404 together with an empty item list.
- Checkout does not check that the `orderId` it updates belongs to the requesting user. Updating an order does not refresh its items from the cart.
- A new order placed with payment details gets `paymentStatus: "complete"`, but unlike an update its fulfilment `status` is not set to `processing`.
- The webhook matches orders on `paymentDetails.razorpay_order_id`. Checkout stores payment details only together with `paymentStatus: "complete"`. So, unless an admin has edited the statuses, the webhook only re-confirms orders that are already paid and never moves a pending one (`Orders.WebhookLeavesUnpaidOrders`). A description of the system as "checkout pending, then the webhook completes the order" does not match this code; the model follows the code.
- `processSellerPayment` neither checks that the order is paid nor that the (order, product) pair already has a payout. A repeated call adds a second record.
- `getAllOrders` drops an order from the payable listing as soon as any one of its products has a payout.
- `verifyEmail` and `resetPassword` pass the whole `req.params` object as the token (controllers/auth-controller.ts:77, :211). The token fields are strings, and the query library casts a filter value to the field's type. An object that is not a query operator does not cast to a string, so the lookup raises a cast error and the `catch` answers 500. As written, every verify-email and reset-password request would therefore answer 500 (not executed). The model looks the account up by the token string, which is the evident intent.
- `getSellerPayment` filters on `sellerId` and `status`, which are not field names of the payout record. Only the rule "an absent value or `all` adds no filter" is modelled.

## Model

| member | source | states |
|---|---|---|
| `Common.OrString` | controllers/order-controller.ts:41-42 | a truthy string wins; an absent or empty one falls back to the stored value |
| `Common.OrNumber` | controllers/order-controller.ts:43 | a truthy number wins; an absent one or 0 falls back to the stored value |
| `Common.Latest` | controllers/order-controller.ts:113-114 | lists only log entries the filter admits and never more entries than the log holds; LatestSelects and LatestNewestFirst complete this to exactly those entries, newest first |
| `Common.Take` | controllers/admin-controller.ts:177 | exactly the first min(n, length of the listing) entries: a prefix of the listing, of length n when the listing is longer, and the whole listing otherwise |
| `Common.LatestSelects` | controllers/order-controller.ts:113-114 | a listing keeps exactly the log entries its filter admits |
| `Common.LatestNewestFirst` | controllers/order-controller.ts:113-114 | a listing puts each entry before every entry created earlier (sorted by createdAt descending) |
| `Common.TakeKeepsNewest` | controllers/admin-controller.ts:173-178 | the first n entries of a newest-first listing were all created after every entry the limit leaves out |
| `Products.Rejection` | controllers/product-controller.ts:33-57 | zero images is rejected with 400 before anything else; "UPI" needs a non-empty upiId; "Bank Account" needs accountNumber, ifscCode and bankName; any other mode has no detail requirement; every rejection is a 400 |
| `Products.Catalog.CreateProduct` | controllers/product-controller.ts:33-84 | a rejected request stores nothing; otherwise exactly one product is added; its seller is the requester; its images are the upload results in input order; the answer is 201 |
| `Carts.Find` | controllers/cart-controller.ts:32-34 | gives the first position holding the product, or none exactly when no item has it |
| `Carts.Merge` | controllers/cart-controller.ts:32-44 | a new product is appended as one item at the end; a present product keeps the item count and its quantity grows by the amount added; all other items stay in place |
| `Carts.MergeKeepsDistinct` | controllers/cart-controller.ts:32-44 | adding preserves "no two items share a product id" |
| `Carts.AddTwiceSums` | controllers/cart-controller.ts:32-44 | adding a product twice equals adding the summed quantity once: one line item, never two |
| `Carts.Without` | controllers/cart-controller.ts:71-73 | no item of the product remains, every remaining item came from the cart, and the list never grows; WithoutSelects and WithoutAppend complete this to exactly the other items, in order |
| `Carts.WithoutSelects` | controllers/cart-controller.ts:71-73 | removal keeps exactly the items of other products |
| `Carts.WithoutAppend` | controllers/cart-controller.ts:71-73 | removal keeps the remaining items in order (it distributes over concatenation) |
| `Carts.WithoutAbsent` | controllers/cart-controller.ts:71-73 | removing a product the cart does not hold is a no-op |
| `Carts.WithoutKeepsDistinct` | controllers/cart-controller.ts:71-73 | removal preserves "no two items share a product id" |
| `Carts.GetCartByUser` | controllers/cart-controller.ts:96-102 | a missing cart yields 404 with an empty item list; otherwise 200 with the cart's items |
| `Carts.CartStore.AddToCart` | controllers/cart-controller.ts:18-47 | unknown product: 404, carts unchanged; own product: 400, carts unchanged; otherwise the user's cart (created empty if missing) becomes Merge of it, nothing else changes, the invariant holds |
| `Carts.CartStore.RemoveFromCart` | controllers/cart-controller.ts:67-77 | no cart: 404, unchanged; otherwise the cart's items become the filtered list and the invariant holds |
| `Carts.CartStore.Clear` | controllers/order-controller.ts:63-65 | an existing cart's items become empty; no cart is created |
| `Wishlists.WithProduct` | controllers/wishlist-controller.ts:26-29 | a present product leaves the list unchanged; an absent one is appended once |
| `Wishlists.WithProductKeepsNoDup` | controllers/wishlist-controller.ts:26-29 | adding never creates a duplicate |
| `Wishlists.Without` | controllers/wishlist-controller.ts:55-57 | the product no longer appears, every remaining id came from the list, and the list never grows; WithoutSelects and WithoutAppend complete this to exactly the other ids, in order |
| `Wishlists.WithoutSelects` | controllers/wishlist-controller.ts:55-57 | removal deletes every occurrence of the product and nothing else |
| `Wishlists.WithoutAppend` | controllers/wishlist-controller.ts:55-57 | removal keeps the rest in order |
| `Wishlists.WithoutKeepsNoDup` | controllers/wishlist-controller.ts:55-57 | removal keeps the list duplicate-free |
| `Wishlists.GetWishlistByUser` | controllers/wishlist-controller.ts:82-91 | a missing wishlist yields 404 with an empty list; otherwise 200 with its products |
| `Wishlists.WishlistStore.AddToWishlist` | controllers/wishlist-controller.ts:18-31 | unknown product: 404, unchanged; otherwise the user's list (created empty if missing) becomes WithProduct of it and stays duplicate-free |
| `Wishlists.WishlistStore.RemoveFromWishlist` | controllers/wishlist-controller.ts:51-61 | no wishlist: 404, unchanged; otherwise every occurrence of the product is removed |
| `Orders.Revised` | controllers/order-controller.ts:40-48 | shippingAddress, paymentMethod and totalAmount are kept unless a truthy value is supplied (a total of 0 keeps the old one); payment details force "complete"/"processing"; without them both statuses and the details are unchanged; owner, items and creation time never change |
| `Orders.Placed` | controllers/order-controller.ts:49-58 | a new order copies the cart's items; its paymentStatus is "complete" iff payment details were given, otherwise "pending"; no fulfilment status is set |
| `Orders.HasGatewayRef` | controllers/order-controller.ts:182-185 | the webhook's filter on `paymentDetails.razorpay_order_id`; FirstWithRef and WebhookLeavesUnpaidOrders state what it selects |
| `Orders.FirstWithRef` | controllers/order-controller.ts:182-185 | finds the earliest-created order carrying the gateway order reference, or none exactly when no order carries it |
| `Orders.Confirmed` | controllers/order-controller.ts:186-190 | the overwritten order is "complete"/"processing" and records the payment id; every other field of the order, and every other field of its payment details (so its gateway reference), stays as it was |
| `Orders.AfterWebhook` | controllers/order-controller.ts:182-191 | no matching order: nothing changes; otherwise exactly one matching order is confirmed and nothing else changes |
| `Orders.FirstWithRefStable` | controllers/order-controller.ts:182-185 | overwriting the matched order with one that keeps its reference leaves the match where it was |
| `Orders.WebhookIdempotent` | controllers/order-controller.ts:182-191 | applying the same verified webhook twice gives the state of applying it once |
| `Orders.CheckoutPaysWithDetails` | controllers/order-controller.ts:44-58 | checkout and the webhook only ever store payment details on an order whose payment is complete |
| `Orders.WebhookLeavesUnpaidOrders` | controllers/order-controller.ts:182-191 | when every order with payment details is paid, the webhook changes no order whose payment is not complete |
| `Orders.GetOrderById` | controllers/order-controller.ts:87-96 | an unknown id yields 404 and no order; a known one yields 200 with that order |
| `Orders.GetOrderByUser` | controllers/order-controller.ts:113-123 | lists exactly the user's orders, newest first |
| `Orders.PaymentIntent` | controllers/order-controller.ts:139-150 | an unknown order yields 404; otherwise the gateway is asked for 100 times the total, in INR, with the order id as receipt |
| `Orders.OrderStore.CreateOrUpdateOrder` | controllers/order-controller.ts:32-72 | no cart or an empty cart: 400 and nothing changes; an orderId naming an order (`Orders.CheckoutTarget`) revises that order; otherwise one new order is placed from the cart; the cart is emptied iff payment details were supplied |
| `Orders.CheckoutTarget` | controllers/order-controller.ts:38-40 | the order checkout revises: present exactly when the request's orderId names a stored order, and then that order; an absent orderId revises no order |
| `Orders.CheckoutTargetAsWritten` | controllers/order-controller.ts:38-40 | the lookup as written: a given orderId behaves as `CheckoutTarget`; an absent one matches some stored order whenever the store is not empty |
| `Orders.CheckoutWithoutOrderIdRevisesAnother` | controllers/order-controller.ts:38-48 | with one order of user a stored, a checkout by b with payment details and no orderId finds a's order and marks it complete, where `CheckoutTarget` finds none |
| `Orders.OrderStore.HandleRazorpayWebhook` | controllers/order-controller.ts:174-201 | a digest that differs from the signature header yields 400 and changes no order; a matching one on a body without `payload.payment.entity` or without its `order` object yields 500 and changes no order; otherwise 200, and the orders become AfterWebhook of the old ones for the body's payment id and order reference |
| `Auth.Registered` | controllers/auth-controller.ts:38-47 | a new account is unverified, carries the verification token and the hashed password, has no reset token and role "user" |
| `Auth.Verified` | controllers/auth-controller.ts:85-86 | verification sets isVerified and clears the verification token, nothing else |
| `Auth.WithResetToken` | controllers/auth-controller.ts:180-183 | a reset request stores the token and an expiry of now + 3,600,000 ms, nothing else |
| `Auth.WithPassword` | controllers/auth-controller.ts:225-227 | a reset sets the new password and clears both reset fields, nothing else |
| `Auth.ResetAllowed` | controllers/auth-controller.ts:214-217 | the reset-token query: the token matches and its expiry lies strictly after now; ResetWithinTheHour and ResetIsSingleUse state when it holds |
| `Auth.ResetWithinTheHour` | controllers/auth-controller.ts:214-217 | a token issued at time t is accepted exactly at times strictly before t + one hour |
| `Auth.ResetCleared` | controllers/auth-controller.ts:226-227 | both reset fields are cleared and nothing else changes |
| `Auth.ResetIsSingleUse` | controllers/auth-controller.ts:225-227 | after a reset, whether it set a password or only cleared the reset fields, no token is accepted for that account |
| `Auth.Public` | controllers/auth-controller.ts:279-281 | the account with its password, verification token and both reset fields removed; every other field, agreeTerms included, is kept |
| `Auth.CheckUserAuth` | controllers/auth-controller.ts:275-287 | no user id: 401; unknown user: 404; otherwise 200 with the public view of the account |
| `Auth.UserStore.Register` | controllers/auth-controller.ts:21-59 | rejects with 400, in this order, a missing field, agreeTerms false, an existing e-mail, each with nothing stored; otherwise stores the new unverified account before the e-mail is sent, so a failed delivery answers 500 with the account kept |
| `Auth.UserStore.VerifyEmail` | controllers/auth-controller.ts:79-98 | an unknown token yields 404 and changes nothing; otherwise one account holding the token becomes Verified |
| `Auth.Attempt` | controllers/auth-controller.ts:124-147 | for the account found: no stored password makes the comparison fail (500); a wrong password gets the same 400 as an unknown e-mail; the right password on an unverified account gets the verify-first 400; 200 exactly when the password matches and the account is verified |
| `Auth.AttemptFollowsAccounts` | controllers/auth-controller.ts:122-147 | when every account with the e-mail has a wrong password, or every one is unverified with the right password, or every one is verified with the right password, or none has a password, the account `findOne` returns gives that answer |
| `Auth.UserStore.Login` | controllers/auth-controller.ts:118-147 | missing e-mail or password: 400; unknown e-mail: 400 "Invalid email or password", nobody logged in; otherwise the answer is Attempt on an account with that e-mail, and on 200 exactly that account is logged in; nothing changes |
| `Auth.UserStore.ForgotPassword` | controllers/auth-controller.ts:169-192 | no e-mail: 400; unknown e-mail: 400; otherwise one account with that e-mail gets the token and a one-hour expiry, stored before the e-mail is sent |
| `Auth.UserStore.ResetPassword` | controllers/auth-controller.ts:214-243 | no account with that token and an expiry after now: 400 and nothing changes; otherwise, for that account: a new password is stored hashed with both reset fields cleared (200); with no new password, an account with a stored password fails in the hashing hook (500, nothing saved), and one without a password only has its reset fields cleared (200) |
| `Addresses.Overwritten` | controllers/address-controller.ts:40-45 | all six fields are written, addressLine2 even when absent, and the owner is kept |
| `Addresses.GetAddressByUserId` | controllers/address-controller.ts:97-107 | no user id: 400; unknown user: 404; otherwise 200 with the whole stored user record, its address list and its password hash and tokens included |
| `Addresses.AddressBook.CreateOrUpdateAddress` | controllers/address-controller.ts:25-73 | no user id: 400; a missing required field (all but addressLine2): 400; an addressId that does not resolve: 400; in each case nothing changes; the update path overwrites the address and leaves the user's list alone; the create path stores a new address and appends its id to the user's list |
| `Admin.PaidOrderIds` | controllers/admin-controller.ts:17-20 | holds exactly the order ids that appear in some payout record |
| `Admin.BuildOrderFilter` | controllers/admin-controller.ts:22-38 | paymentStatus defaults to "complete" and a supplied value replaces it; the status filter applies only when given; the inclusive date range applies only when both ends are given |
| `Admin.Admits` | controllers/admin-controller.ts:22-38 | the conditions of the built query; GetAllOrders lists exactly the orders it admits, newest first |
| `Admin.GetAllOrders` | controllers/admin-controller.ts:17-50 | never lists an order whose id appears in a payout record; lists exactly the orders the filter admits, newest first |
| `Admin.Relabelled` | controllers/admin-controller.ts:73-74 | status and paymentStatus are overwritten only when provided; nothing else changes |
| `Admin.UpdateOrder` | controllers/admin-controller.ts:67-78 | an unknown id yields 404 and changes nothing; otherwise only that order is relabelled |
| `Admin.FindOrderItem` | controllers/admin-controller.ts:111-113 | scans the items in order: Found gives the product's seller, and every item before the match joined; NotInOrder only when no item has the product and every item joined; Dangling only at an item that did not join, with no match before it; never Dangling when every item joins |
| `Admin.Ledger.ProcessSellerPayment` | controllers/admin-controller.ts:95-135 | a missing productId, paymentMethod or amount (0 included) yields 400; a missing order or a product not among its items yields 404; each leaves the payouts unchanged; success adds exactly one payout for the product's seller with status "complete" and changes only the ledger |
| `Admin.Tally` | controllers/admin-controller.ts:211-216 | one step of the fold never adds a key; a group with a known status sets that key to its count, and every other key keeps its value |
| `Admin.Tallied` | controllers/admin-controller.ts:204-216 | the status record always has exactly the four keys processing, shipped, delivered and cancelled |
| `Admin.TallyByStatus` | controllers/admin-controller.ts:204-216 | the forEach loop computes Tallied, the four-key record starting from zeros |
| `Admin.TalliedGroup` | controllers/admin-controller.ts:211-216 | with one group per status, a key holds its group's count |
| `Admin.TalliedMissing` | controllers/admin-controller.ts:204-216 | a key no group mentions stays 0; groups outside the four keys are ignored |
| `Admin.CountWithStatusZero` | controllers/admin-controller.ts:163-170 | a status no order has is counted 0 |
| `Admin.OrderByStatusCounts` | controllers/admin-controller.ts:204-216 | over a faithful group-by-status result, each of the four keys holds the number of orders with that status |
| `Admin.Revenue` | controllers/admin-controller.ts:181-184 | the `$sum` of totalAmount over completed orders; RevenueReported, RevenueAppend, RevenueFrame and RevenueOfNewOrder state its properties |
| `Admin.RevenueRows` | controllers/admin-controller.ts:181-184 | the aggregation gives at most one row, and that row holds Revenue |
| `Admin.ReportedRevenue` | controllers/admin-controller.ts:227 | the `revenue.length > 0 ? revenue[0].total : 0` read; RevenueReported states that it equals Revenue |
| `Admin.RevenueWithoutCompleted` | controllers/admin-controller.ts:181-184 | with no completed order the sum is 0 |
| `Admin.RevenueReported` | controllers/admin-controller.ts:227 | the reported revenue is the sum of totalAmount over completed orders, or 0 when there are none |
| `Admin.RevenueAppend` | controllers/admin-controller.ts:181-184 | revenue sums over disjoint parts of the order log |
| `Admin.RevenueFrame` | controllers/admin-controller.ts:181-184 | revenue depends only on the orders in the log |
| `Admin.RevenueOfNewOrder` | controllers/admin-controller.ts:181-184 | a new order adds its total to the revenue exactly when its payment is complete |
| `Admin.GetDashboardStats` | controllers/admin-controller.ts:148-233 | counts are the collection sizes; revenue is the sum over completed orders; orderByStatus is the four-key fold; the recent orders are at most five, newest first, and every order left out was created before every order listed; nothing changes |
| `Admin.Narrowing` | controllers/admin-controller.ts:249-259 | a value narrows the payout listing only when present and not "all" |
| `Admin.BuildPaymentFilter` | controllers/admin-controller.ts:249-266 | each of sellerId, status and paymentMethod is added only when present and not "all"; the date range only when both ends are given |

## Findings

| source | as written | input that shows it | evidently intended | confidence | as-written member | corrected member |
|---|---|---|---|---|---|---|
| controllers/order-controller.ts:38-48 | `Order.findOne({ _id: orderId })` with `orderId` undefined: the query library drops the undefined condition, so the query is `findOne({})` and matches some stored order, which is then revised (and marked complete when payment details are sent) while no order is placed for the requester, whose cart is still cleared | a store holding one order of user a; user b checks out with payment details and no `orderId` | a checkout without `orderId` places a new order and touches no existing one | not executed | `Orders.CheckoutTargetAsWritten`, `Orders.CheckoutWithoutOrderIdRevisesAnother` | `Orders.CheckoutTarget` |

## Left out

- HTTP plumbing: routes, cookies, JWT issuing and checking, the global error handler and response formatting. `logout` only clears a cookie. The authentication and admin guard on the admin routes is not modelled, and neither is which routes it covers (see above for `/dashboard-stats`).
- The `catch` branches answer 500 for failures of foreign calls and the database. The model produces 500 only where it names the cause: a failed e-mail delivery, comparing against an account with no stored password, clearing a stored password through a reset with no new password (the save hook then hashes nothing), a webhook body missing `payload.payment.entity` or its `order` object, and an order item whose product is missing.
- The payment gateway client. `Orders.PaymentIntent` returns the request it would send, not the gateway's answer.
- Float conversion: amounts are integers, so `Math.round(totalAmount * 100)` is exactly `100 * totalAmount`. Floating-point rounding is not modelled.
- The HMAC computation itself. It is an uninterpreted parameter, and the raw body and the fields read from it are given separately.
- A webhook body whose `entity.id` or `order.id` is present as an object but undefined: the model's body always carries both strings once the objects exist. How the database treats an undefined value in the filter or the update is not modelled.
- Which order the webhook updates when several carry the same gateway reference: `findOneAndUpdate` without a sort promises no particular one, and the model takes the first in creation order.
- The signature comparison is modelled as plain equality. Timing behaviour is not modelled.
- bcrypt hashing and comparison, `crypto.randomBytes`, e-mail content and sending, and image upload. All are parameters.
- Upload failures are not modelled.
- `JSON.parse` of the product's payment details: the model receives the parsed value, and malformed JSON (a 500 in the source) is not modelled.
- Mongoose specifics:
  - `populate` joins. Listings return ids, not joined documents.
  - the monthly sales aggregation (`$month`/`$year`).
  - date-string parsing: dates are given as parsed integers.
  - casting errors for malformed ids.
  - schema defaults the order model would add: that model is not part of this model, so a new order has no fulfilment status.
- `Admin.GetDashboardStats`: the group-by-status rows are an input, as the database returns them. `Admin.OrderByStatusCounts` states what the fold gives for a faithful result.
- `Admin.Ledger.ProcessSellerPayment` assumes the seller's user record exists. In the source, a missing seller makes `.seller._id` throw.
- `getSellerPayment` beyond its filter construction: applying the filter and joining the payouts are not modelled, because `sellerId` and `status` are not payout fields.
- Ids and request types: request ids are taken to be canonical lower-case hex strings, and request fields to arrive with their declared types. In the source, `findById` accepts an id in any letter case, while cart and wishlist items are compared as strings (`toString() === productId`, `includes`). So an upper-case product id adds a second line item, and the "one item per product" invariant holds only for canonical ids. A `quantity` sent as a string would be concatenated by `+=`, not added.
- `Orders.OrderStore.CreateOrUpdateOrder` follows the corrected lookup `Orders.CheckoutTarget`: an absent `orderId` names no order, so a new order is placed. As written, an absent `orderId` makes the lookup match some stored order (see "## Findings").
- Concurrency: `Promise.all`, and the race between saving an order and clearing the cart. Every handler runs as one atomic step.
- `updateUserProfile` (controllers/user-controller.ts) is a single find-and-update with an empty `catch` and is not part of this model.

=== FILE: addresses.dfy ===
/** Shipping addresses: create-or-update for the requesting user, and the
    per-user listing. */
module Addresses {
  import opened Common
  import Auth

  datatype Address = Address(
    user: Id,
    addressLine1: string,
    addressLine2: Option<string>,
    phoneNumber: string,
    city: string,
    state: string,
    pincode: string)

  /** The request body; every field may be omitted. */
  datatype AddressForm = AddressForm(
    addressLine1: Option<string>,
    addressLine2: Option<string>,
    phoneNumber: Option<string>,
    city: Option<string>,
    state: Option<string>,
    pincode: Option<string>,
    addressId: Option<Id>)

  /** Every required field is present; addressLine2 is optional. */
  predicate Complete(f: AddressForm) {
    Given(f.addressLine1) && Given(f.phoneNumber) && Given(f.city) && Given(f.state) && Given(f.pincode)
  }

  /** The six fields of a form written over an address (addressLine2 even
      when the form leaves it out); the owner stays. */
  function Overwritten(a: Address, f: AddressForm): (r: Address)
    requires Complete(f)
    ensures r.user == a.user
    ensures r.addressLine1 == f.addressLine1.value && r.addressLine2 == f.addressLine2
    ensures r.phoneNumber == f.phoneNumber.value && r.city == f.city.value
    ensures r.state == f.state.value && r.pincode == f.pincode.value
  {
    a.(addressLine1 := f.addressLine1.value, addressLine2 := f.addressLine2,
       phoneNumber := f.phoneNumber.value, city := f.city.value,
       state := f.state.value, pincode := f.pincode.value)
  }

  /** `getAddressByUserId`: the whole stored user record, whose address
      list the handler joins. No field is removed from the answer, so the
      password hash and the tokens go out with it. */
  function GetAddressByUserId(users: map<Id, Auth.User>, userId: Option<Id>): (r: (Reply, Option<Auth.User>))
    ensures !Given(userId) ==> r == (Reply(400, "Please provide a valid id"), None)
    ensures Given(userId) && userId.value !in users ==> r == (Reply(404, "User Address not found"), None)
    ensures r.0.code == 200 <==> Given(userId) && userId.value in users
    ensures r.0.code == 200 ==> r.1 == Some(users[userId.value])
    ensures r.0.code == 200 ==> r.1.value.address == users[userId.value].address
    // unlike `checkUserAuth`, the secrets are not stripped
    ensures r.0.code == 200 ==>
      && r.1.value.password == users[userId.value].password
      && r.1.value.verificationToken == users[userId.value].verificationToken
      && r.1.value.resetPasswordToken == users[userId.value].resetPasswordToken
  {
    if !Given(userId) then (Reply(400, "Please provide a valid id"), None)
    else if userId.value !in users then (Reply(404, "User Address not found"), None)
    else (Reply(200, "User address get successful"), Some(users[userId.value]))
  }

  /** The address collection. */
  class AddressBook {
    var addresses: map<Id, Address>

    constructor ()
      ensures addresses == map[]
    {
      addresses := map[];
    }

    /** `createOrUpdateAddressByUserId`; `freshId` is the id a new address
        gets. */
    method CreateOrUpdateAddress(userId: Option<Id>, form: AddressForm, accounts: Auth.UserStore, freshId: Id)
      returns (reply: Reply)
      requires freshId !in addresses
      modifies this, accounts
      ensures !Given(userId) ==>
        reply == Reply(400, "Please provide a valid id") &&
        addresses == old(addresses) && accounts.users == old(accounts.users)
      ensures Given(userId) && !Complete(form) ==>
        reply == Reply(400, "All fields are required") &&
        addresses == old(addresses) && accounts.users == old(accounts.users)
      // an addressId that names no address is refused and nothing changes
      ensures Given(userId) && Complete(form) && Given(form.addressId) && form.addressId.value !in old(addresses) ==>
        reply == Reply(400, "Address not found") &&
        addresses == old(addresses) && accounts.users == old(accounts.users)
      // update path: the address is overwritten in place, the user's list is untouched
      ensures Given(userId) && Complete(form) && Given(form.addressId) && form.addressId.value in old(addresses) ==>
        && reply == Reply(200, "Address updated successfully")
        && addresses == old(addresses)[form.addressId.value := Overwritten(old(addresses)[form.addressId.value], form)]
        && accounts.users == old(accounts.users)
      // create path: a new address, its id appended to the user's list when the user exists
      ensures Given(userId) && Complete(form) && !Given(form.addressId) ==>
        && reply == Reply(200, "Address created successfully")
        && addresses == old(addresses)[freshId := Address(userId.value, form.addressLine1.value, form.addressLine2,
                                                          form.phoneNumber.value, form.city.value,
                                                          form.state.value, form.pincode.value)]
        && accounts.users ==
             if userId.value in old(accounts.users)
             then old(accounts.users)[userId.value := old(accounts.users)[userId.value].(
                    address := old(accounts.users)[userId.value].address + [freshId])]
             else old(accounts.users)
    {
      if !Given(userId) {
        return Reply(400, "Please provide a valid id");
      }
      if !Complete(form) {
        return Reply(400, "All fields are required");
      }
      if Given(form.addressId) {
        var id := form.addressId.value;
        if id !in addresses {
          return Reply(400, "Address not found");
        }
        addresses := addresses[id := Overwritten(addresses[id], form)];
        return Reply(200, "Address updated successfully");
      }
      var user := userId.value;
      addresses := addresses[freshId := Address(user, form.addressLine1.value, form.addressLine2,
                                                form.phoneNumber.value, form.city.value,
                                                form.state.value, form.pincode.value)];
      // findByIdAndUpdate with $push: a missing user is left alone
      if user in accounts.users {
        var u := accounts.users[user];
        accounts.users := accounts.users[user := u.(address := u.address + [freshId])];
      }
      reply := Reply(200, "Address created successfully");
    }
  }
}

=== FILE: admin.dfy ===
/** The admin view: payable-order listing, order status updates, seller
    payouts, dashboard statistics and the payout listing's filter. */
module Admin {
  import opened Common
  import Carts
  import Products
  import Orders
  import Auth

  /** A payout to the seller of one product of one order. */
  datatype SellerPayment = SellerPayment(
    seller: Id,
    order: Id,
    product: Id,
    amount: int,
    paymentMethod: string,
    paymentStatus: string,
    processedBy: Id,
    notes: Option<string>)

  // ---------------------------------------------------------------------
  // getAllOrders

  /** The order ids that already have a payout record. */
  function PaidOrderIds(payments: map<Id, SellerPayment>): (r: set<Id>)
    ensures forall id :: id in r <==> exists k :: k in payments && payments[k].order == id
  {
    set k | k in payments :: payments[k].order
  }

  /** The query string of `getAllOrders`; dates are the parsed values of
      non-empty parameters. */
  datatype OrderListQuery = OrderListQuery(
    status: Option<string>, paymentStatus: Option<string>, startDate: Option<int>, endDate: Option<int>)

  /** The database filter `getAllOrders` builds. */
  datatype OrderFilter = OrderFilter(
    paymentStatus: string, excluded: set<Id>, status: Option<string>, createdBetween: Option<(int, int)>)

  function BuildOrderFilter(q: OrderListQuery, paid: set<Id>): (f: OrderFilter)
    // payment status defaults to "complete"; a supplied value replaces it
    ensures f.paymentStatus == if Given(q.paymentStatus) then q.paymentStatus.value else "complete"
    ensures f.excluded == paid
    // the status filter applies only when given
    ensures f.status.Some? <==> Given(q.status)
    ensures f.status.Some? ==> f.status == q.status
    // the date range applies only when both ends are given
    ensures f.createdBetween.Some? <==> q.startDate.Some? && q.endDate.Some?
    ensures f.createdBetween.Some? ==> f.createdBetween.value == (q.startDate.value, q.endDate.value)
  {
    var query := OrderFilter("complete", paid, None, None);
    var query := if Given(q.status) then query.(status := q.status) else query;
    var query := query.(paymentStatus := if Given(q.paymentStatus) then q.paymentStatus.value else "complete");
    if q.startDate.Some? && q.endDate.Some? then query.(createdBetween := Some((q.startDate.value, q.endDate.value)))
    else query
  }

  predicate Admits(f: OrderFilter, id: Id, o: Orders.Order) {
    && id !in f.excluded
    && o.paymentStatus == f.paymentStatus
    && (f.status.Some? ==> o.status == f.status)
    && (f.createdBetween.Some? ==> f.createdBetween.value.0 <= o.createdAt <= f.createdBetween.value.1)
  }

  /** `getAllOrders`: the matching orders, newest first. */
  function GetAllOrders(
    orders: map<Id, Orders.Order>, log: seq<Id>, payments: map<Id, SellerPayment>, q: OrderListQuery)
    : (r: seq<Id>)
    requires NoDup(log)
    // an order that already has a payout is never listed
    ensures forall id :: id in r ==> forall k :: k in payments ==> payments[k].order != id
    ensures forall id :: id in r <==>
      id in log && id in orders && Admits(BuildOrderFilter(q, PaidOrderIds(payments)), id, orders[id])
    ensures NewestFirst(log, r)
  {
    var f := BuildOrderFilter(q, PaidOrderIds(payments));
    var keep := (id: Id) => id in orders && Admits(f, id, orders[id]);
    LatestSelects(log, keep);
    LatestNewestFirst(log, keep);
    Latest(log, keep)
  }

  // ---------------------------------------------------------------------
  // updateOrder

  /** An order after the admin sets its statuses; only truthy values apply. */
  function Relabelled(o: Orders.Order, status: Option<string>, paymentStatus: Option<string>): (r: Orders.Order)
    ensures r.status == if Given(status) then status else o.status
    ensures r.paymentStatus == if Given(paymentStatus) then paymentStatus.value else o.paymentStatus
    // nothing else changes
    ensures r == o.(status := r.status, paymentStatus := r.paymentStatus)
  {
    var o' := if Given(status) then o.(status := status) else o;
    if Given(paymentStatus) then o'.(paymentStatus := paymentStatus.value) else o'
  }

  /** `updateOrder`. */
  method UpdateOrder(store: Orders.OrderStore, id: Id, status: Option<string>, paymentStatus: Option<string>)
    returns (reply: Reply)
    requires store.Valid()
    modifies store
    ensures store.Valid() && store.created == old(store.created)
    ensures id !in old(store.orders) ==>
      reply == Reply(404, "Order not found") && store.orders == old(store.orders)
    ensures id in old(store.orders) ==>
      reply == Reply(200, "Order updated successfully") &&
      store.orders == old(store.orders)[id := Relabelled(old(store.orders)[id], status, paymentStatus)]
  {
    if id !in store.orders {
      return Reply(404, "Order not found");
    }
    var order := store.orders[id];
    if Given(status) {
      order := order.(status := status);
    }
    if Given(paymentStatus) {
      order := order.(paymentStatus := paymentStatus.value);
    }
    store.orders := store.orders[id := order];
    reply := Reply(200, "Order updated successfully");
  }

  // ---------------------------------------------------------------------
  // processSellerPayment

  /** What looking a product up among an order's joined items gives. */
  datatype ItemLookup = Found(seller: Id) | NotInOrder | Dangling

  /** `order.items.find(item => item.product._id === productId)` over items
      joined with the catalogue: an item whose product is missing joins to
      null, and reading its `_id` fails (Dangling). */
  function FindOrderItem(items: seq<Carts.CartItem>, productId: Id, products: map<Id, Products.Product>)
    : (r: ItemLookup)
    ensures r.Found? ==>
      && productId in products && r.seller == products[productId].seller
      // the scan stops at the first match: every item before it joined
      && exists i :: (0 <= i < |items| && items[i].product == productId &&
                      forall j :: 0 <= j < i ==> items[j].product in products)
    ensures r == NotInOrder ==> forall i :: 0 <= i < |items| ==> items[i].product != productId
    // and only when every item joined: an item that did not join fails first
    ensures r == NotInOrder ==> forall i :: 0 <= i < |items| ==> items[i].product in products
    // it fails at the first item that did not join, before any match
    ensures r == Dangling ==> exists i :: (0 <= i < |items| && items[i].product !in products &&
                                           forall j :: 0 <= j < i ==> items[j].product != productId)
    // when every item's product exists, the lookup cannot fail
    ensures (forall i :: 0 <= i < |items| ==> items[i].product in products) ==> !r.Dangling?
  {
    if items == [] then NotInOrder
    else if items[0].product !in products then Dangling
    else if items[0].product == productId then Found(products[productId].seller)
    else
      var r := FindOrderItem(items[1..], productId, products);
      assert forall i :: 0 <= i < |items| - 1 ==> items[1..][i] == items[i + 1];
      assert r.Found? ==> exists i :: (0 <= i < |items| && items[i].product == productId &&
                                       forall j :: 0 <= j < i ==> items[j].product in products) by {
        if r.Found? {
          var i :| 0 <= i < |items| - 1 && items[1..][i].product == productId
            && forall j :: 0 <= j < i ==> items[1..][j].product in products;
          assert items[i + 1].product == productId;
        }
      }
      assert r == Dangling ==> exists i :: (0 <= i < |items| && items[i].product !in products &&
                                            forall j :: 0 <= j < i ==> items[j].product != productId) by {
        if r == Dangling {
          var i :| 0 <= i < |items| - 1 && items[1..][i].product !in products
            && forall j :: 0 <= j < i ==> items[1..][j].product != productId;
          assert items[i + 1].product !in products;
        }
      }
      r
  }

  /** The payout records. */
  class Ledger {
    var payments: map<Id, SellerPayment>

    constructor ()
      ensures payments == map[]
    {
      payments := map[];
    }

    /** `processSellerPayment` by `admin`; `freshId` is the new record's id.
        Only the ledger may change: the order is left as it is. */
    method ProcessSellerPayment(
      orderId: Id, productId: Option<Id>, paymentMethod: Option<string>, amount: Option<int>,
      notes: Option<string>, admin: Id, orderStore: Orders.OrderStore, catalog: Products.Catalog, freshId: Id)
      returns (reply: Reply)
      requires freshId !in payments
      modifies this
      ensures !Given(productId) || !Given(paymentMethod) || !GivenNumber(amount) ==>
        reply == Reply(400, "Missing required fields") && payments == old(payments)
      ensures Given(productId) && Given(paymentMethod) && GivenNumber(amount) && orderId !in orderStore.orders ==>
        reply == Reply(404, "Order not found") && payments == old(payments)
      ensures Given(productId) && Given(paymentMethod) && GivenNumber(amount) && orderId in orderStore.orders ==>
        var lookup := FindOrderItem(orderStore.orders[orderId].items, productId.value, catalog.products);
        && (lookup == NotInOrder ==> reply == Reply(404, "Product not found in the order") && payments == old(payments))
        && (lookup == Dangling ==> reply == InternalError && payments == old(payments))
        // exactly one new record, for the product's seller, marked complete
        && (lookup.Found? ==>
              && reply == Reply(200, "Payment to seller processed successfully")
              && payments == old(payments)[freshId := SellerPayment(
                   lookup.seller, orderId, productId.value, amount.value, paymentMethod.value,
                   "complete", admin, notes)])
    {
      if !Given(productId) || !Given(paymentMethod) || !GivenNumber(amount) {
        return Reply(400, "Missing required fields");
      }
      if orderId !in orderStore.orders {
        return Reply(404, "Order not found");
      }
      var lookup := FindOrderItem(orderStore.orders[orderId].items, productId.value, catalog.products);
      match lookup
      case NotInOrder =>
        reply := Reply(404, "Product not found in the order");
      case Dangling =>
        reply := InternalError;
      case Found(seller) =>
        payments := payments[freshId := SellerPayment(
          seller, orderId, productId.value, amount.value, paymentMethod.value, "complete", admin, notes)];
        reply := Reply(200, "Payment to seller processed successfully");
    }
  }

  // ---------------------------------------------------------------------
  // getDashboardStats: order counts by status

  /** One row of the `$group` by status: a status (None for orders without
      one) and how many orders have it. */
  datatype StatusGroup = StatusGroup(status: Option<string>, count: int)

  const StatusKeys: set<string> := {"processing", "shipped", "delivered", "cancelled"}

  /** One step of the `forEach`: a known status overwrites its entry,
      any other group is ignored. */
  function Tally(orderByStatus: map<string, int>, g: StatusGroup): (r: map<string, int>)
    ensures r.Keys == orderByStatus.Keys
    ensures forall k :: k in r && (g.status.None? || k != g.status.value) ==> r[k] == orderByStatus[k]
    ensures g.status.Some? && g.status.value in orderByStatus ==> r[g.status.value] == g.count
  {
    if g.status.Some? && g.status.value in orderByStatus then orderByStatus[g.status.value := g.count]
    else orderByStatus
  }

  /** `orderByStatus` after the `forEach` over groups. */
  function Tallied(groups: seq<StatusGroup>): (r: map<string, int>)
    ensures r.Keys == StatusKeys
  {
    if groups == [] then map["processing" := 0, "shipped" := 0, "delivered" := 0, "cancelled" := 0]
    else Tally(Tallied(groups[..|groups| - 1]), groups[|groups| - 1])
  }

  /** The status-count fold of `getDashboardStats`. */
  method TallyByStatus(groups: seq<StatusGroup>) returns (orderByStatus: map<string, int>)
    ensures orderByStatus == Tallied(groups)
    ensures orderByStatus.Keys == StatusKeys
  {
    orderByStatus := map["processing" := 0, "shipped" := 0, "delivered" := 0, "cancelled" := 0];
    for i := 0 to |groups|
      invariant orderByStatus == Tallied(groups[..i])
    {
      assert groups[..i + 1][..i] == groups[..i];
      var status := groups[i].status;
      if status.Some? && status.value in orderByStatus {
        orderByStatus := orderByStatus[status.value := groups[i].count];
      }
    }
    assert groups[..|groups|] == groups;
  }

  ghost predicate DistinctStatuses(groups: seq<StatusGroup>) {
    forall i, j :: 0 <= i < j < |groups| ==> groups[i].status != groups[j].status
  }

  /** With one group per status, each key holds its group's count. */
  lemma {:induction false} TalliedGroup(groups: seq<StatusGroup>, k: string, i: nat)
    requires DistinctStatuses(groups)
    requires k in StatusKeys && i < |groups| && groups[i].status == Some(k)
    ensures Tallied(groups)[k] == groups[i].count
  {
    var n := |groups| - 1;
    var init := groups[..n];
    if i < n {
      assert DistinctStatuses(init);
      assert init[i] == groups[i];
      TalliedGroup(init, k, i);
      assert groups[n].status != Some(k);
    }
  }

  /** A key no group mentions stays 0. */
  lemma {:induction false} TalliedMissing(groups: seq<StatusGroup>, k: string)
    requires k in StatusKeys
    requires forall i :: 0 <= i < |groups| ==> groups[i].status != Some(k)
    ensures Tallied(groups)[k] == 0
  {
    if groups != [] {
      var init := groups[..|groups| - 1];
      assert forall i :: 0 <= i < |init| ==> init[i] == groups[i];
      TalliedMissing(init, k);
    }
  }

  /** How many orders of the log have the given status. */
  function CountWithStatus(orders: map<Id, Orders.Order>, log: seq<Id>, s: Option<string>): nat
  {
    if log == [] then 0
    else (if log[0] in orders && orders[log[0]].status == s then 1 else 0) + CountWithStatus(orders, log[1..], s)
  }

  lemma {:induction false} CountWithStatusZero(orders: map<Id, Orders.Order>, log: seq<Id>, s: Option<string>)
    requires forall id :: id in log && id in orders ==> orders[id].status != s
    ensures CountWithStatus(orders, log, s) == 0
  {
    if log != [] {
      assert forall id :: id in log[1..] ==> id in log;
      CountWithStatusZero(orders, log[1..], s);
    }
  }

  /** groups is what the `$group` by status returns for these orders. */
  ghost predicate GroupsOf(groups: seq<StatusGroup>, orders: map<Id, Orders.Order>, log: seq<Id>) {
    && DistinctStatuses(groups)
    && (forall i :: 0 <= i < |groups| ==> groups[i].count == CountWithStatus(orders, log, groups[i].status))
    && (forall id :: id in log && id in orders ==> exists i :: 0 <= i < |groups| && groups[i].status == orders[id].status)
  }

  /** Over a faithful `$group` result, each of the four keys holds the
      number of orders with that status. */
  lemma OrderByStatusCounts(groups: seq<StatusGroup>, orders: map<Id, Orders.Order>, log: seq<Id>, k: string)
    requires GroupsOf(groups, orders, log) && k in StatusKeys
    ensures Tallied(groups)[k] == CountWithStatus(orders, log, Some(k))
  {
    if i :| 0 <= i < |groups| && groups[i].status == Some(k) {
      TalliedGroup(groups, k, i);
    } else {
      TalliedMissing(groups, k);
      CountWithStatusZero(orders, log, Some(k));
    }
  }

  // ---------------------------------------------------------------------
  // getDashboardStats: revenue

  predicate Completed(orders: map<Id, Orders.Order>, id: Id) {
    id in orders && orders[id].paymentStatus == "complete"
  }

  /** `$sum` of `totalAmount` over completed orders (an absent total adds
      nothing). */
  function Revenue(orders: map<Id, Orders.Order>, log: seq<Id>): int
  {
    if log == [] then 0
    else
      (if Completed(orders, log[0]) && orders[log[0]].totalAmount.Some? then orders[log[0]].totalAmount.value else 0)
      + Revenue(orders, log[1..])
  }

  function CompletedCount(orders: map<Id, Orders.Order>, log: seq<Id>): nat
  {
    if log == [] then 0
    else (if Completed(orders, log[0]) then 1 else 0) + CompletedCount(orders, log[1..])
  }

  /** The revenue aggregation's rows: none when no order is completed,
      otherwise one holding the total. */
  function RevenueRows(orders: map<Id, Orders.Order>, log: seq<Id>): (r: seq<int>)
    ensures |r| <= 1
    ensures |r| == 1 ==> r[0] == Revenue(orders, log)
  {
    if CompletedCount(orders, log) > 0 then [Revenue(orders, log)] else []
  }

  /** `revenue.length > 0 ? revenue[0].total : 0`. */
  function ReportedRevenue(rows: seq<int>): int
  {
    if |rows| > 0 then rows[0] else 0
  }

  lemma {:induction false} RevenueWithoutCompleted(orders: map<Id, Orders.Order>, log: seq<Id>)
    requires CompletedCount(orders, log) == 0
    ensures Revenue(orders, log) == 0
  {
    if log != [] {
      RevenueWithoutCompleted(orders, log[1..]);
    }
  }

  /** The reported revenue is the sum over completed orders, 0 when there
      are none. */
  lemma RevenueReported(orders: map<Id, Orders.Order>, log: seq<Id>)
    ensures ReportedRevenue(RevenueRows(orders, log)) == Revenue(orders, log)
  {
    if CompletedCount(orders, log) == 0 {
      RevenueWithoutCompleted(orders, log);
    }
  }

  lemma {:induction false} RevenueAppend(orders: map<Id, Orders.Order>, a: seq<Id>, b: seq<Id>)
    ensures Revenue(orders, a + b) == Revenue(orders, a) + Revenue(orders, b)
  {
    if a == [] {
      assert a + b == b;
    } else {
      assert (a + b)[1..] == a[1..] + b;
      RevenueAppend(orders, a[1..], b);
    }
  }

  lemma {:induction false} RevenueFrame(orders: map<Id, Orders.Order>, log: seq<Id>, id: Id, o: Orders.Order)
    requires id !in log
    ensures Revenue(orders[id := o], log) == Revenue(orders, log)
  {
    if log != [] {
      RevenueFrame(orders, log[1..], id, o);
    }
  }

  /** A new order adds its total to the revenue exactly when it is paid:
      checkout without payment details leaves the revenue as it was. */
  lemma RevenueOfNewOrder(orders: map<Id, Orders.Order>, log: seq<Id>, id: Id, o: Orders.Order)
    requires id !in log
    ensures Revenue(orders[id := o], log + [id]) ==
      Revenue(orders, log) + (if o.paymentStatus == "complete" && o.totalAmount.Some? then o.totalAmount.value else 0)
  {
    RevenueAppend(orders[id := o], log, [id]);
    RevenueFrame(orders, log, id, o);
    assert [id][1..] == [];
  }

  datatype DashboardStats = DashboardStats(
    orders: nat, users: nat, products: nat, revenue: int,
    orderByStatus: map<string, int>, recentOrders: seq<Id>)

  /** `getDashboardStats`; `statusGroups` is the result of the `$group` by
      status. Nothing changes. */
  method GetDashboardStats(
    orderStore: Orders.OrderStore, accounts: Auth.UserStore, catalog: Products.Catalog,
    statusGroups: seq<StatusGroup>)
    returns (stats: DashboardStats)
    requires orderStore.Valid()
    ensures stats.orders == |orderStore.orders| && stats.users == |accounts.users|
    ensures stats.products == |catalog.products|
    ensures stats.revenue == Revenue(orderStore.orders, orderStore.created)
    ensures stats.orderByStatus.Keys == StatusKeys && stats.orderByStatus == Tallied(statusGroups)
    // the five most recent orders, newest first
    ensures |stats.recentOrders| == if |orderStore.orders| < 5 then |orderStore.orders| else 5
    ensures NewestFirst(orderStore.created, stats.recentOrders)
    ensures forall id :: id in stats.recentOrders ==> id in orderStore.orders
    // and every order left out was created before every order listed
    ensures forall id, r :: id in orderStore.orders && id !in stats.recentOrders && r in stats.recentOrders ==>
      IndexOf(orderStore.created, r) > IndexOf(orderStore.created, id)
  {
    var orderByStatus := TallyByStatus(statusGroups);
    var rows := RevenueRows(orderStore.orders, orderStore.created);
    RevenueReported(orderStore.orders, orderStore.created);
    var all := (id: Id) => true;
    LatestSelects(orderStore.created, all);
    LatestNewestFirst(orderStore.created, all);
    var newest := Latest(orderStore.created, all);
    LatestLength(orderStore.created, orderStore.orders);
    var recent := Take(newest, 5);
    TakeKeepsNewest(orderStore.created, newest, 5);
    stats := DashboardStats(|orderStore.orders|, |accounts.users|, |catalog.products|,
                            ReportedRevenue(rows), orderByStatus, recent);
  }

  lemma LatestLength(log: seq<Id>, orders: map<Id, Orders.Order>)
    requires NoDup(log) && forall id :: id in log <==> id in orders
    ensures |Latest(log, (id: Id) => true)| == |orders|
  {
    LatestAllIsReverse(log);
    NoDupCard(log);
    assert (set id | id in log) == orders.Keys;
  }

  lemma {:induction false} LatestAllIsReverse(log: seq<Id>)
    ensures |Latest(log, (id: Id) => true)| == |log|
  {
    if log != [] {
      LatestAllIsReverse(log[1..]);
    }
  }

  lemma {:induction false} NoDupCard(log: seq<Id>)
    requires NoDup(log)
    ensures |set id | id in log| == |log|
  {
    if log != [] {
      var t := log[1..];
      assert NoDup(t) by {
        forall i, j | 0 <= i < j < |t| ensures t[i] != t[j] { assert t[i] == log[i + 1] && t[j] == log[j + 1]; }
      }
      NoDupCard(t);
      assert log[0] !in t;
      assert (set id | id in log) == (set id | id in t) + {log[0]};
    }
  }

  // ---------------------------------------------------------------------
  // getSellerPayment

  /** The query string of `getSellerPayment`. */
  datatype PaymentQuery = PaymentQuery(
    sellerId: Option<string>, status: Option<string>, paymentMethod: Option<string>,
    startDate: Option<int>, endDate: Option<int>)

  datatype PaymentFilter = PaymentFilter(
    sellerId: Option<string>, status: Option<string>, paymentMethod: Option<string>,
    createdBetween: Option<(int, int)>)

  /** A query value narrows the listing only when present and not "all". */
  function Narrowing(v: Option<string>): (r: Option<string>)
    ensures r.Some? <==> Given(v) && v.value != "all"
    ensures r.Some? ==> r == v
  {
    if Given(v) && v.value != "all" then v else None
  }

  function BuildPaymentFilter(q: PaymentQuery): (f: PaymentFilter)
    ensures f.sellerId.Some? <==> Given(q.sellerId) && q.sellerId.value != "all"
    ensures f.status.Some? <==> Given(q.status) && q.status.value != "all"
    ensures f.paymentMethod.Some? <==> Given(q.paymentMethod) && q.paymentMethod.value != "all"
    ensures f.sellerId.Some? ==> f.sellerId == q.sellerId
    ensures f.status.Some? ==> f.status == q.status
    ensures f.paymentMethod.Some? ==> f.paymentMethod == q.paymentMethod
    ensures f.createdBetween.Some? <==> q.startDate.Some? && q.endDate.Some?
    ensures f.createdBetween.Some? ==> f.createdBetween.value == (q.startDate.value, q.endDate.value)
  {
    PaymentFilter(
      Narrowing(q.sellerId), Narrowing(q.status), Narrowing(q.paymentMethod),
      if q.startDate.Some? && q.endDate.Some? then Some((q.startDate.value, q.endDate.value)) else None)
  }
}

=== FILE: auth.dfy ===
/** Accounts: registration, e-mail verification, login, password reset and
    the session check, as transitions on user records. Password hashing,
    token generation, the clock and e-mail delivery are parameters. */
module Auth {
  import opened Common

  datatype User = User(
    name: string,
    email: string,
    password: Option<string>,        // the stored hash; accounts made through OAuth have none
    isVerified: bool,
    verificationToken: Option<string>,
    resetPasswordToken: Option<string>,
    resetPasswordExpires: Option<int>,
    agreeTerms: bool,
    address: seq<Id>,
    role: string)

  /** How long a reset token stays valid, in milliseconds (one hour). */
  const ResetWindow: int := 3600000

  /** A newly registered account. */
  function Registered(name: string, email: string, hashed: string, token: string): (u: User)
    ensures !u.isVerified && u.verificationToken == Some(token)
    ensures u.name == name && u.email == email && u.password == Some(hashed) && u.agreeTerms
    ensures u.resetPasswordToken.None? && u.resetPasswordExpires.None?
    ensures u.address == [] && u.role == "user"
  {
    User(name, email, Some(hashed), false, Some(token), None, None, true, [], "user")
  }

  /** The account after its e-mail address is verified. */
  function Verified(u: User): (r: User)
    ensures r.isVerified && r.verificationToken.None?
    ensures r == u.(isVerified := r.isVerified, verificationToken := r.verificationToken)
  {
    u.(isVerified := true, verificationToken := None)
  }

  /** The account after a password-reset request at time `now`. */
  function WithResetToken(u: User, token: string, now: int): (r: User)
    ensures r.resetPasswordToken == Some(token) && r.resetPasswordExpires == Some(now + ResetWindow)
    ensures r == u.(resetPasswordToken := r.resetPasswordToken, resetPasswordExpires := r.resetPasswordExpires)
  {
    u.(resetPasswordToken := Some(token), resetPasswordExpires := Some(now + ResetWindow))
  }

  /** `findOne({ resetPasswordToken: token, resetPasswordExpires: { $gt: now } })` matches u. */
  predicate ResetAllowed(u: User, token: string, now: int) {
    u.resetPasswordToken == Some(token) && u.resetPasswordExpires.Some? && u.resetPasswordExpires.value > now
  }

  /** The account with both reset fields cleared and nothing else changed. */
  function ResetCleared(u: User): (r: User)
    ensures r.resetPasswordToken.None? && r.resetPasswordExpires.None?
    ensures r == u.(resetPasswordToken := None, resetPasswordExpires := None)
  {
    u.(resetPasswordToken := None, resetPasswordExpires := None)
  }

  /** The account after its password is reset. */
  function WithPassword(u: User, hashed: string): (r: User)
    ensures r.password == Some(hashed)
    ensures r.resetPasswordToken.None? && r.resetPasswordExpires.None?
    ensures r == u.(password := r.password, resetPasswordToken := None, resetPasswordExpires := None)
  {
    ResetCleared(u).(password := Some(hashed))
  }

  /** A reset token issued at `now` is accepted exactly until one hour later
      (the expiry must lie strictly after the time of the reset). */
  lemma ResetWithinTheHour(u: User, token: string, now: int, t: int)
    ensures ResetAllowed(WithResetToken(u, token, now), token, t) <==> t < now + ResetWindow
  {
  }

  /** A completed reset cannot be replayed with any token, whether it set a
      new password or only cleared the reset fields. */
  lemma ResetIsSingleUse(u: User, hashed: string, token: string, t: int)
    ensures !ResetAllowed(WithPassword(u, hashed), token, t)
    ensures !ResetAllowed(ResetCleared(u), token, t)
  {
  }

  /** The user record `checkUserAuth` returns, without its secrets. */
  function Public(u: User): (r: User)
    ensures r.password.None? && r.verificationToken.None?
    ensures r.resetPasswordToken.None? && r.resetPasswordExpires.None?
    ensures r.name == u.name && r.email == u.email && r.isVerified == u.isVerified
    ensures r.address == u.address && r.role == u.role
    ensures r == u.(password := None, verificationToken := None, resetPasswordToken := None, resetPasswordExpires := None)
  {
    u.(password := None, verificationToken := None, resetPasswordToken := None, resetPasswordExpires := None)
  }

  /** `checkUserAuth`. */
  function CheckUserAuth(users: map<Id, User>, userId: Option<Id>): (r: (Reply, Option<User>))
    ensures !Given(userId) ==> r == (Reply(401, "Unauthorized please login to access!"), None)
    ensures Given(userId) && userId.value !in users ==> r == (Reply(404, "User not found"), None)
    ensures r.0.code == 200 <==> Given(userId) && userId.value in users
    ensures r.0.code == 200 ==> r.1 == Some(Public(users[userId.value]))
  {
    if !Given(userId) then (Reply(401, "Unauthorized please login to access!"), None)
    else if userId.value !in users then (Reply(404, "User not found"), None)
    else (Reply(200, "User fetch successfully"), Some(Public(users[userId.value])))
  }

  /** The answer `login` gives once it has found the account `u`: the
      comparison fails on an account without a stored password, a wrong
      password gets the same answer as an unknown e-mail, and only a
      verified account is let in. */
  function Attempt(u: User, candidate: string, matches: (string, string) -> bool): (r: Reply)
    ensures u.password.None? ==> r == InternalError
    ensures u.password.Some? && !matches(candidate, u.password.value) ==> r == Reply(400, "Invalid email or password")
    ensures u.password.Some? && matches(candidate, u.password.value) && !u.isVerified ==>
      r == Reply(400, "Please verify your email before login. Check you email inbox to verify")
    ensures r.code == 200 <==> u.password.Some? && matches(candidate, u.password.value) && u.isVerified
    ensures r.code == 200 ==> r == Reply(200, "User login successfully.")
  {
    if u.password.None? then InternalError
    else if !matches(candidate, u.password.value) then Reply(400, "Invalid email or password")
    else if !u.isVerified then Reply(400, "Please verify your email before login. Check you email inbox to verify")
    else Reply(200, "User login successfully.")
  }

  /** When every account with the e-mail agrees on the outcome, the account
      `login` happens to find gives that outcome. */
  lemma AttemptFollowsAccounts(users: map<Id, User>, email: string, candidate: string,
                               matches: (string, string) -> bool, id: Id)
    requires id in users && users[id].email == email
    ensures (forall j :: j in users && users[j].email == email ==>
               users[j].password.Some? && !matches(candidate, users[j].password.value)) ==>
      Attempt(users[id], candidate, matches) == Reply(400, "Invalid email or password")
    ensures (forall j :: j in users && users[j].email == email ==>
               users[j].password.Some? && matches(candidate, users[j].password.value) && !users[j].isVerified) ==>
      Attempt(users[id], candidate, matches) == Reply(400, "Please verify your email before login. Check you email inbox to verify")
    ensures (forall j :: j in users && users[j].email == email ==>
               users[j].password.Some? && matches(candidate, users[j].password.value) && users[j].isVerified) ==>
      Attempt(users[id], candidate, matches) == Reply(200, "User login successfully.")
    ensures (forall j :: j in users && users[j].email == email ==> users[j].password.None?) ==>
      Attempt(users[id], candidate, matches) == InternalError
  {
  }

  ghost predicate EmailTaken(users: map<Id, User>, email: string) {
    exists id :: id in users && users[id].email == email
  }

  /** The user collection. */
  class UserStore {
    var users: map<Id, User>

    constructor ()
      ensures users == map[]
    {
      users := map[];
    }

    /** `register`. `hashed` is the hash the save hook stores for the
        password, `token` the random verification token, `freshId` the new
        document's id and `mailDelivered` whether the verification e-mail
        was sent. */
    method Register(
      name: Option<string>, email: Option<string>, password: Option<string>, agreeTerms: Option<bool>,
      hashed: string, token: string, freshId: Id, mailDelivered: bool)
      returns (reply: Reply)
      requires freshId !in users
      modifies this
      // the checks, in the order the handler makes them
      ensures !Given(name) || !Given(email) || !Given(password) || agreeTerms.None? ==>
        reply == Reply(400, "All fields are required") && users == old(users)
      ensures Given(name) && Given(email) && Given(password) && agreeTerms == Some(false) ==>
        reply == Reply(400, "You must agree to the terms and conditions") && users == old(users)
      ensures Given(name) && Given(email) && Given(password) && agreeTerms == Some(true) &&
              EmailTaken(old(users), email.value) ==>
        reply == Reply(400, "User already exists") && users == old(users)
      // the account is stored, unverified, before the e-mail is sent: a
      // failed delivery answers 500 and the account stays
      ensures Given(name) && Given(email) && Given(password) && agreeTerms == Some(true) &&
              !EmailTaken(old(users), email.value) ==>
        && users == old(users)[freshId := Registered(name.value, email.value, hashed, token)]
        && reply == if mailDelivered then Reply(201, "User register successfully, Please check your mail inbox to verify your account.")
                    else InternalError
    {
      if !Given(name) || !Given(email) || !Given(password) || agreeTerms.None? {
        return Reply(400, "All fields are required");
      }
      if !agreeTerms.value {
        return Reply(400, "You must agree to the terms and conditions");
      }
      if exists id :: id in users && users[id].email == email.value {
        return Reply(400, "User already exists");
      }
      users := users[freshId := Registered(name.value, email.value, hashed, token)];
      if !mailDelivered {
        return InternalError;
      }
      reply := Reply(201, "User register successfully, Please check your mail inbox to verify your account.");
    }

    /** `verifyEmail`, looking the account up by its verification token. */
    method VerifyEmail(token: string) returns (reply: Reply)
      modifies this
      ensures (forall id :: id in old(users) ==> old(users)[id].verificationToken != Some(token)) ==>
        reply == Reply(404, "User not found") && users == old(users)
      ensures (exists id :: id in old(users) && old(users)[id].verificationToken == Some(token)) ==>
        && reply == Reply(200, "Email verified succesfully")
        && exists id :: id in old(users) && old(users)[id].verificationToken == Some(token) &&
             users == old(users)[id := Verified(old(users)[id])]
    {
      if id :| id in users && users[id].verificationToken == Some(token) {
        users := users[id := Verified(users[id])];
        reply := Reply(200, "Email verified succesfully");
      } else {
        reply := Reply(404, "User not found");
      }
    }

    /** `login`. `matches(candidate, hash)` is the password comparison; it
        fails on an account without a stored password. Nothing changes. */
    method Login(email: Option<string>, password: Option<string>, matches: (string, string) -> bool)
      returns (reply: Reply, who: Option<Id>)
      ensures !Given(email) || !Given(password) ==> reply == Reply(400, "All fields are required") && who.None?
      // an unknown e-mail gets the same answer as a wrong password
      ensures Given(email) && Given(password) && !EmailTaken(users, email.value) ==>
        reply == Reply(400, "Invalid email or password") && who.None?
      // otherwise the account found with that e-mail decides, and a success
      // logs exactly that account in
      ensures Given(email) && Given(password) && EmailTaken(users, email.value) ==>
        exists id :: id in users && users[id].email == email.value &&
          reply == Attempt(users[id], password.value, matches) &&
          who == (if reply.code == 200 then Some(id) else None)
    {
      who := None;
      if !Given(email) || !Given(password) {
        return Reply(400, "All fields are required"), None;
      }
      if id :| id in users && users[id].email == email.value {
        reply := Attempt(users[id], password.value, matches);
        if reply.code == 200 {
          who := Some(id);
        }
      } else {
        reply := Reply(400, "Invalid email or password");
      }
    }

    /** `forgotPassword` at time `now` with the random `token`. */
    method ForgotPassword(email: Option<string>, token: string, now: int, mailDelivered: bool)
      returns (reply: Reply)
      modifies this
      ensures !Given(email) ==> reply == Reply(400, "Email is required!") && users == old(users)
      ensures Given(email) && !EmailTaken(old(users), email.value) ==>
        reply == Reply(400, "No account found with this email!") && users == old(users)
      // the token is stored before the e-mail goes out
      ensures Given(email) && EmailTaken(old(users), email.value) ==>
        && (exists id :: id in old(users) && old(users)[id].email == email.value &&
              users == old(users)[id := WithResetToken(old(users)[id], token, now)])
        && reply == if mailDelivered then Reply(200, "A password reset link has been sent to your email.")
                    else InternalError
    {
      if !Given(email) {
        return Reply(400, "Email is required!");
      }
      if id :| id in users && users[id].email == email.value {
        users := users[id := WithResetToken(users[id], token, now)];
        if !mailDelivered {
          return InternalError;
        }
        reply := Reply(200, "A password reset link has been sent to your email.");
      } else {
        reply := Reply(400, "No account found with this email!");
      }
    }

    /** `resetPassword` at time `now`; `hashed` is what the save hook
        stores for `newPassword`. The hook hashes only a password that was
        modified: setting an absent `newPassword` over a stored hash makes
        the hashing fail (500, nothing saved), while on an account that has
        no password it is no change, so the save only clears the reset
        fields. */
    method ResetPassword(token: string, newPassword: Option<string>, hashed: string, now: int)
      returns (reply: Reply)
      modifies this
      ensures (forall id :: id in old(users) ==> !ResetAllowed(old(users)[id], token, now)) ==>
        reply == Reply(400, "Invalid or expired reset password token") && users == old(users)
      ensures (exists id :: id in old(users) && ResetAllowed(old(users)[id], token, now)) ==>
        exists id :: id in old(users) && ResetAllowed(old(users)[id], token, now) &&
          (newPassword.Some? ==>
             reply == Reply(200, "Your password reset succesfully. You can now login with your new credentials") &&
             users == old(users)[id := WithPassword(old(users)[id], hashed)]) &&
          (newPassword.None? && old(users)[id].password.Some? ==>
             reply == InternalError && users == old(users)) &&
          (newPassword.None? && old(users)[id].password.None? ==>
             reply == Reply(200, "Your password reset succesfully. You can now login with your new credentials") &&
             users == old(users)[id := ResetCleared(old(users)[id])])
    {
      if id :| id in users && ResetAllowed(users[id], token, now) {
        if newPassword.Some? {
          users := users[id := WithPassword(users[id], hashed)];
        } else if users[id].password.Some? {
          return InternalError;
        } else {
          users := users[id := ResetCleared(users[id])];
        }
        reply := Reply(200, "Your password reset succesfully. You can now login with your new credentials");
      } else {
        reply := Reply(400, "Invalid or expired reset password token");
      }
    }
  }
}

=== FILE: carts.dfy ===
/** The cart aggregate: one list of (product, quantity) line items per user. */
module Carts {
  import opened Common
  import Products

  datatype CartItem = CartItem(product: Id, quantity: int)

  /** The cart invariant: no two line items share a product. */
  ghost predicate DistinctProducts(items: seq<CartItem>) {
    forall i, j :: 0 <= i < j < |items| ==> items[i].product != items[j].product
  }

  /** `items.find(item => item.product === p)`, as a position. */
  function Find(items: seq<CartItem>, p: Id): (r: Option<nat>)
    ensures r.Some? ==> r.value < |items| && items[r.value].product == p
    ensures r.Some? ==> forall j :: 0 <= j < r.value ==> items[j].product != p
    ensures r.None? <==> forall j :: 0 <= j < |items| ==> items[j].product != p
  {
    if items == [] then None
    else if items[0].product == p then Some(0)
    else match Find(items[1..], p)
      case None => None
      case Some(k) => Some(k + 1)
  }

  /** The line items after adding `q` of product `p`: the quantity of the
      item for `p` grows by `q`, or a new item is appended. */
  function Merge(items: seq<CartItem>, p: Id, q: int): (r: seq<CartItem>)
    // a product not yet in the cart is appended as one new item at the end
    ensures (forall j :: 0 <= j < |items| ==> items[j].product != p) ==> r == items + [CartItem(p, q)]
    // a product already in the cart: same number of items, its quantity summed
    ensures (exists j :: 0 <= j < |items| && items[j].product == p) ==>
      && |r| == |items|
      && exists j :: 0 <= j < |items| && items[j].product == p && r[j] == CartItem(p, items[j].quantity + q)
    // every item of another product stays where and what it was
    ensures forall j :: 0 <= j < |items| && items[j].product != p ==> r[j] == items[j]
  {
    match Find(items, p)
    case Some(k) => items[k := CartItem(p, items[k].quantity + q)]
    case None => items + [CartItem(p, q)]
  }

  lemma MergeKeepsDistinct(items: seq<CartItem>, p: Id, q: int)
    requires DistinctProducts(items)
    ensures DistinctProducts(Merge(items, p, q))
  {
    var r := Merge(items, p, q);
    match Find(items, p)
    case Some(k) =>
      forall i, j | 0 <= i < j < |r| ensures r[i].product != r[j].product {
        assert r[i].product == items[i].product && r[j].product == items[j].product;
      }
    case None =>
  }

  /** Adding a product twice gives one line item with the summed quantity,
      never two line items. */
  lemma AddTwiceSums(items: seq<CartItem>, p: Id, q1: int, q2: int)
    ensures Merge(Merge(items, p, q1), p, q2) == Merge(items, p, q1 + q2)
  {
    var once := Merge(items, p, q1);
    match Find(items, p)
    case Some(k) =>
      assert Find(once, p) == Some(k);
    case None =>
      assert once == items + [CartItem(p, q1)];
      assert once[|items|].product == p;
      var f := Find(once, p);
      assert f.Some? && f.value == |items|;
  }

  /** `items.filter(item => item.product !== p)`. */
  function Without(items: seq<CartItem>, p: Id): (r: seq<CartItem>)
    ensures |r| <= |items|
    ensures forall i :: 0 <= i < |r| ==> r[i].product != p && r[i] in items
  {
    if items == [] then []
    else (if items[0].product == p then [] else [items[0]]) + Without(items[1..], p)
  }

  /** Removal drops exactly the items of product p. */
  lemma {:induction false} WithoutSelects(items: seq<CartItem>, p: Id)
    ensures forall x :: x in Without(items, p) <==> x in items && x.product != p
    ensures |Without(items, p)| <= |items|
  {
    if items != [] {
      WithoutSelects(items[1..], p);
      assert items == [items[0]] + items[1..];
    }
  }

  /** Removal keeps the remaining items in their order: it distributes over
      concatenation. */
  lemma {:induction false} WithoutAppend(a: seq<CartItem>, b: seq<CartItem>, p: Id)
    ensures Without(a + b, p) == Without(a, p) + Without(b, p)
  {
    if a == [] {
      assert a + b == b;
    } else {
      assert (a + b)[1..] == a[1..] + b;
      WithoutAppend(a[1..], b, p);
    }
  }

  /** Removing a product the cart does not hold changes nothing. */
  lemma {:induction false} WithoutAbsent(items: seq<CartItem>, p: Id)
    requires forall j :: 0 <= j < |items| ==> items[j].product != p
    ensures Without(items, p) == items
  {
    if items != [] {
      WithoutAbsent(items[1..], p);
    }
  }

  lemma WithoutKeepsDistinct(items: seq<CartItem>, p: Id)
    requires DistinctProducts(items)
    ensures DistinctProducts(Without(items, p))
  {
    if items != [] {
      WithoutKeepsDistinct(items[1..], p);
      WithoutSelects(items[1..], p);
      var rest := Without(items[1..], p);
      assert forall x :: x in rest ==> x.product != items[0].product;
    }
  }

  /** `getCartByUser`: a user without a cart is answered with status 404
      and an empty item list, not with an error. */
  function GetCartByUser(carts: map<Id, seq<CartItem>>, user: Id): (r: (Reply, seq<CartItem>))
    ensures user !in carts ==> r == (Reply(404, "Cart is empty"), [])
    ensures user in carts ==> r.0.code == 200 && r.1 == carts[user]
  {
    if user in carts then (Reply(200, "User cart get successfully"), carts[user])
    else (Reply(404, "Cart is empty"), [])
  }

  /** The cart collection, keyed by its owner. */
  class CartStore {
    var carts: map<Id, seq<CartItem>>

    ghost predicate Valid()
      reads this
    {
      forall u :: u in carts ==> DistinctProducts(carts[u])
    }

    constructor ()
      ensures Valid() && carts == map[]
    {
      carts := map[];
    }

    /** The items of a user's cart; a missing cart reads as empty. */
    function ItemsOf(user: Id): seq<CartItem>
      reads this
    {
      if user in carts then carts[user] else []
    }

    /** `addToCart`. */
    method AddToCart(user: Id, productId: Id, quantity: int, catalog: Products.Catalog)
      returns (reply: Reply)
      requires Valid()
      modifies this
      ensures Valid()
      ensures productId !in catalog.products ==>
        reply == Reply(404, "Product not found") && carts == old(carts)
      ensures productId in catalog.products && catalog.products[productId].seller == user ==>
        reply == Reply(400, "You cannot add your own product to the cart.") && carts == old(carts)
      ensures productId in catalog.products && catalog.products[productId].seller != user ==>
        && reply == Reply(200, "Item added to cart.")
        && carts == old(carts)[user := Merge(old(ItemsOf(user)), productId, quantity)]
    {
      if productId !in catalog.products {
        return Reply(404, "Product not found");
      }
      if catalog.products[productId].seller == user {
        return Reply(400, "You cannot add your own product to the cart.");
      }
      // a missing cart is created empty
      var items := if user in carts then carts[user] else [];
      var existing := Find(items, productId);
      if existing.Some? {
        var k := existing.value;
        items := items[k := items[k].(quantity := items[k].quantity + quantity)];
      } else {
        items := items + [CartItem(productId, quantity)];
      }
      MergeKeepsDistinct(ItemsOf(user), productId, quantity);
      carts := carts[user := items];
      reply := Reply(200, "Item added to cart.");
    }

    /** `removeFromCart`. */
    method RemoveFromCart(user: Id, productId: Id) returns (reply: Reply)
      requires Valid()
      modifies this
      ensures Valid()
      ensures user !in old(carts) ==>
        reply == Reply(404, "Cart not found for this user") && carts == old(carts)
      ensures user in old(carts) ==>
        reply == Reply(200, "Item removed from cart.") &&
        carts == old(carts)[user := Without(old(carts)[user], productId)]
    {
      if user !in carts {
        return Reply(404, "Cart not found for this user");
      }
      WithoutKeepsDistinct(carts[user], productId);
      carts := carts[user := Without(carts[user], productId)];
      reply := Reply(200, "Item removed from cart.");
    }

    /** `Cart.findOneAndUpdate({ user }, { $set: { items: [] } })`: empties an
        existing cart and creates none. */
    method Clear(user: Id)
      requires Valid()
      modifies this
      ensures Valid()
      ensures carts == if user in old(carts) then old(carts)[user := []] else old(carts)
    {
      if user in carts {
        carts := carts[user := []];
      }
    }
  }
}

=== FILE: common.dfy ===
/** Values shared by every handler of the marketplace backend: optional
    request fields, the reply a handler sends, JavaScript truthiness of a
    request field, and the "newest first" ordering that every listing uses. */
module Common {

  datatype Option<+T> = None | Some(value: T)

  /** Document identifiers (Mongo ObjectIds compared through their strings). */
  type Id = string

  /** The HTTP status code and message a handler answers with. */
  datatype Reply = Reply(code: int, message: string)

  const InternalError := Reply(500, "Internal server error")

  /** `if (x)` on an optional request string: absent and "" are falsy. */
  predicate Given(s: Option<string>) {
    s.Some? && s.value != ""
  }

  /** `if (n)` on an optional request number: absent and 0 are falsy. */
  predicate GivenNumber(n: Option<int>) {
    n.Some? && n.value != 0
  }

  /** `a || fallback` on optional strings. */
  function OrString(a: Option<string>, fallback: Option<string>): (r: Option<string>)
    ensures Given(a) ==> r == a
    ensures !Given(a) ==> r == fallback
  {
    if Given(a) then a else fallback
  }

  /** `a || fallback` on optional numbers. */
  function OrNumber(a: Option<int>, fallback: Option<int>): (r: Option<int>)
    ensures GivenNumber(a) ==> r == a
    ensures !GivenNumber(a) ==> r == fallback
  {
    if GivenNumber(a) then a else fallback
  }

  predicate NoDup<T(==)>(s: seq<T>) {
    forall i, j :: 0 <= i < j < |s| ==> s[i] != s[j]
  }

  /** The first position of x in s. */
  function IndexOf<T(==)>(s: seq<T>, x: T): (k: nat)
    requires x in s
    ensures k < |s| && s[k] == x
    ensures forall j :: 0 <= j < k ==> s[j] != x
  {
    if s[0] == x then 0 else 1 + IndexOf(s[1..], x)
  }

  /** The entries of a creation log that `keep` admits, the most recently
      created first: a query sorted by `createdAt: -1`. */
  function Latest<T>(log: seq<T>, keep: T -> bool): (r: seq<T>)
    ensures |r| <= |log|
    ensures forall x :: x in r ==> x in log && keep(x)
  {
    if log == [] then []
    else Latest(log[1..], keep) + (if keep(log[0]) then [log[0]] else [])
  }

  /** r holds entries of log, each created after the ones that follow it. */
  ghost predicate NewestFirst<T>(log: seq<T>, r: seq<T>) {
    (forall x :: x in r ==> x in log) &&
    forall i, j :: 0 <= i < j < |r| ==> IndexOf(log, r[i]) > IndexOf(log, r[j])
  }

  lemma {:induction false} LatestSelects<T>(log: seq<T>, keep: T -> bool)
    ensures forall x :: x in Latest(log, keep) <==> x in log && keep(x)
  {
    if log != [] {
      LatestSelects(log[1..], keep);
      assert log == [log[0]] + log[1..];
    }
  }

  lemma {:induction false} LatestNewestFirst<T>(log: seq<T>, keep: T -> bool)
    requires NoDup(log)
    ensures NewestFirst(log, Latest(log, keep))
  {
    if log != [] {
      var a, t := log[0], log[1..];
      assert NoDup(t) by {
        forall i, j | 0 <= i < j < |t| ensures t[i] != t[j] { assert t[i] == log[i + 1] && t[j] == log[j + 1]; }
      }
      LatestNewestFirst(t, keep);
      LatestSelects(t, keep);
      var rest := Latest(t, keep);
      var r := Latest(log, keep);
      assert a !in t;
      forall x | x in rest ensures x in log && x != a && IndexOf(log, x) == 1 + IndexOf(t, x) {
        assert x in t;
      }
      forall x | x in r ensures x in log {
        assert x in rest || x == a;
      }
      forall i, j | 0 <= i < j < |r| ensures IndexOf(log, r[i]) > IndexOf(log, r[j]) {
        assert r[i] == rest[i];
        if j < |rest| {
          assert r[j] == rest[j];
        } else {
          assert r[j] == a;
          assert IndexOf(log, r[i]) == 1 + IndexOf(t, r[i]);
        }
      }
    }
  }

  /** At most the first n entries of s. */
  function Take<T>(s: seq<T>, n: nat): (r: seq<T>)
    ensures |r| <= n && |r| <= |s|
    ensures |s| <= n ==> r == s
    ensures |s| > n ==> |r| == n
    ensures forall i :: 0 <= i < |r| ==> r[i] == s[i]
  {
    if |s| <= n then s else s[..n]
  }

  /** The first n entries of a newest-first listing are newer than every
      entry of it they leave out. */
  lemma TakeKeepsNewest<T>(log: seq<T>, s: seq<T>, n: nat)
    requires NewestFirst(log, s)
    ensures forall x, y :: x in s && x !in Take(s, n) && y in Take(s, n) ==> IndexOf(log, y) > IndexOf(log, x)
  {
    var t := Take(s, n);
    forall x, y | x in s && x !in t && y in t ensures IndexOf(log, y) > IndexOf(log, x) {
      var j :| 0 <= j < |s| && s[j] == x;
      var i :| 0 <= i < |t| && t[i] == y;
      assert s[i] == y && i < j;
    }
  }
}

=== FILE: orders.dfy ===
/** The order lifecycle: checkout from the cart (create or update), the
    payment-gateway webhook, and the order lookups. */
module Orders {
  import opened Common
  import Carts

  /** The gateway references a client sends as `paymentDetails`
      (`razorpay_order_id`, `razorpay_payment_id`). */
  datatype PaymentDetails = PaymentDetails(razorpayOrderId: Option<string>, razorpayPaymentId: Option<string>)

  datatype Order = Order(
    user: Id,
    items: seq<Carts.CartItem>,
    totalAmount: Option<int>,
    shippingAddress: Option<Id>,
    paymentMethod: Option<string>,
    paymentDetails: Option<PaymentDetails>,
    paymentStatus: string,
    status: Option<string>,   // fulfilment status; no default is known for it
    createdAt: int)

  /** The body of a checkout request; every field may be omitted. */
  datatype Checkout = Checkout(
    orderId: Option<Id>,
    shippingAddress: Option<Id>,
    paymentMethod: Option<string>,
    totalAmount: Option<int>,
    paymentDetails: Option<PaymentDetails>)

  /** An existing order after a checkout request names it. */
  function Revised(o: Order, req: Checkout): (r: Order)
    // each field is kept unless a truthy new value is supplied (a total of 0 keeps the old one)
    ensures r.shippingAddress == if Given(req.shippingAddress) then req.shippingAddress else o.shippingAddress
    ensures r.paymentMethod == if Given(req.paymentMethod) then req.paymentMethod else o.paymentMethod
    ensures r.totalAmount == if GivenNumber(req.totalAmount) then req.totalAmount else o.totalAmount
    // payment details force the order to paid and processing
    ensures req.paymentDetails.Some? ==>
      r.paymentDetails == req.paymentDetails && r.paymentStatus == "complete" && r.status == Some("processing")
    ensures req.paymentDetails.None? ==>
      r.paymentDetails == o.paymentDetails && r.paymentStatus == o.paymentStatus && r.status == o.status
    // owner, item snapshot and creation time are never touched
    ensures r.user == o.user && r.items == o.items && r.createdAt == o.createdAt
  {
    var o' := o.(
      shippingAddress := OrString(req.shippingAddress, o.shippingAddress),
      paymentMethod := OrString(req.paymentMethod, o.paymentMethod),
      totalAmount := OrNumber(req.totalAmount, o.totalAmount));
    if req.paymentDetails.Some? then
      o'.(paymentDetails := req.paymentDetails, paymentStatus := "complete", status := Some("processing"))
    else o'
  }

  /** A new order made at checkout from the cart's items. */
  function Placed(user: Id, items: seq<Carts.CartItem>, req: Checkout, now: int): (r: Order)
    ensures r.user == user && r.items == items && r.createdAt == now
    ensures r.totalAmount == req.totalAmount && r.shippingAddress == req.shippingAddress
    ensures r.paymentMethod == req.paymentMethod && r.paymentDetails == req.paymentDetails
    ensures r.paymentStatus == "complete" <==> req.paymentDetails.Some?
    ensures r.paymentStatus == "pending" <==> req.paymentDetails.None?
    // unlike an update, a new order does not set the fulfilment status
    ensures r.status.None?
  {
    Order(user, items, req.totalAmount, req.shippingAddress, req.paymentMethod, req.paymentDetails,
          if req.paymentDetails.Some? then "complete" else "pending", None, now)
  }

  /** The order an `orderId` names, if it names one. */
  predicate Resolves(orders: map<Id, Order>, orderId: Option<Id>) {
    orderId.Some? && orderId.value in orders
  }

  /** The order checkout revises, as evidently intended: the one the request
      names, and none when the request names none, so a checkout without an
      `orderId` places a new order. */
  function CheckoutTarget(orders: map<Id, Order>, orderId: Option<Id>): (r: Option<Id>)
    ensures r.Some? <==> Resolves(orders, orderId)
    ensures r.Some? ==> r == orderId && r.value in orders
    // an absent orderId never revises an existing order
    ensures orderId.None? ==> r.None?
  {
    if Resolves(orders, orderId) then orderId else None
  }

  /** The order `Order.findOne({ _id: orderId })` returns as written. The
      query library drops a condition whose value is undefined, so an absent
      `orderId` turns the query into `findOne({})`, which returns some
      stored order (which one is unspecified) as soon as one exists. */
  ghost function CheckoutTargetAsWritten(orders: map<Id, Order>, orderId: Option<Id>): (r: Option<Id>)
    ensures orderId.Some? ==> r == CheckoutTarget(orders, orderId)
    ensures orderId.None? ==> (r.Some? <==> orders != map[])
    ensures r.Some? ==> r.value in orders
  {
    if orderId.Some? then CheckoutTarget(orders, orderId)
    else if orders == map[] then None
    else
      assert exists id :: id in orders by {
        var k :| k in orders.Keys;
      }
      var id :| id in orders;
      Some(id)
  }

  /** A counterexample to the code as written: with one order of user "a"
      stored, user "b" checks out with payment details but no `orderId`.
      Instead of placing an order for "b", the lookup finds the order of "a",
      and that order is marked paid and in processing. */
  lemma CheckoutWithoutOrderIdRevisesAnother()
    ensures
      var theirs := Order("a", [], Some(10), None, None, None, "pending", None, 0);
      var orders := map["o1" := theirs];
      var req := Checkout(None, None, None, None, Some(PaymentDetails(Some("gw"), Some("pay"))));
      && CheckoutTargetAsWritten(orders, req.orderId) == Some("o1")
      && orders["o1"].user != "b"
      && Revised(orders["o1"], req).paymentStatus == "complete"
      && CheckoutTarget(orders, req.orderId).None?
  {
    var theirs := Order("a", [], Some(10), None, None, None, "pending", None, 0);
    var orders := map["o1" := theirs];
    assert orders.Keys == {"o1"};
  }

  // ---------------------------------------------------------------------
  // The payment webhook

  /** The fields of a verified webhook body the handler reads. */
  datatype WebhookPayload = WebhookPayload(paymentId: string, orderRef: string)

  /** The webhook body as far as the handler walks it: `payload.payment.entity`
      (absent when any step of that path is missing), and in it the payment
      id and the id of its `order` object (absent when there is no `order`). */
  datatype PaymentEntity = PaymentEntity(id: string, order: Option<string>)
  datatype WebhookBody = WebhookBody(entity: Option<PaymentEntity>)

  predicate HasGatewayRef(o: Order, ref: string) {
    o.paymentDetails.Some? && o.paymentDetails.value.razorpayOrderId == Some(ref)
  }

  /** The order `findOneAndUpdate({ "paymentDetails.razorpay_order_id": ref })`
      updates. The database promises no order among several matches; the
      model chooses the first match in creation order. */
  function FirstWithRef(orders: map<Id, Order>, log: seq<Id>, ref: string): (r: Option<Id>)
    ensures r.Some? ==> r.value in log && r.value in orders && HasGatewayRef(orders[r.value], ref)
    ensures r.Some? ==> forall j :: 0 <= j < IndexOf(log, r.value) && log[j] in orders ==> !HasGatewayRef(orders[log[j]], ref)
    ensures r.None? <==> forall id :: id in log && id in orders ==> !HasGatewayRef(orders[id], ref)
  {
    if log == [] then None
    else if log[0] in orders && HasGatewayRef(orders[log[0]], ref) then Some(log[0])
    else
      var r := FirstWithRef(orders, log[1..], ref);
      assert r.Some? ==> IndexOf(log, r.value) == 1 + IndexOf(log[1..], r.value);
      assert r.None? ==> forall id :: id in log ==> id == log[0] || id in log[1..];
      r
  }

  /** The webhook's overwrite of one order. */
  function Confirmed(o: Order, paymentId: string): (r: Order)
    ensures r.paymentStatus == "complete" && r.status == Some("processing")
    ensures r.paymentDetails.Some? && r.paymentDetails.value.razorpayPaymentId == Some(paymentId)
    ensures forall ref :: HasGatewayRef(o, ref) ==> HasGatewayRef(r, ref)
    ensures r.user == o.user && r.items == o.items && r.totalAmount == o.totalAmount
    // only the two statuses and the payment id are written: the rest of the
    // order, and the rest of its payment details, stay as they were
    ensures r == o.(paymentStatus := "complete", status := Some("processing"), paymentDetails := r.paymentDetails)
    ensures o.paymentDetails.Some? ==>
      r.paymentDetails == Some(o.paymentDetails.value.(razorpayPaymentId := Some(paymentId)))
  {
    var details := match o.paymentDetails
      case Some(d) => d.(razorpayPaymentId := Some(paymentId))
      case None => PaymentDetails(None, Some(paymentId));
    o.(paymentStatus := "complete", status := Some("processing"), paymentDetails := Some(details))
  }

  /** The orders after a webhook whose signature checked out. */
  function AfterWebhook(orders: map<Id, Order>, log: seq<Id>, payload: WebhookPayload): (r: map<Id, Order>)
    ensures r.Keys == orders.Keys
    // no order carries the gateway reference: nothing changes
    ensures (forall id :: id in log && id in orders ==> !HasGatewayRef(orders[id], payload.orderRef)) ==> r == orders
    // otherwise exactly one order carrying it is confirmed
    ensures (exists id :: id in log && id in orders && HasGatewayRef(orders[id], payload.orderRef)) ==>
      exists id :: id in orders && HasGatewayRef(orders[id], payload.orderRef) &&
        r == orders[id := Confirmed(orders[id], payload.paymentId)]
  {
    match FirstWithRef(orders, log, payload.orderRef)
    case None => orders
    case Some(id) => orders[id := Confirmed(orders[id], payload.paymentId)]
  }

  lemma {:induction false} FirstWithRefStable(orders: map<Id, Order>, log: seq<Id>, ref: string, id: Id, o: Order)
    requires FirstWithRef(orders, log, ref) == Some(id)
    requires HasGatewayRef(o, ref)
    ensures FirstWithRef(orders[id := o], log, ref) == Some(id)
  {
    if log[0] != id {
      FirstWithRefStable(orders, log[1..], ref, id, o);
    }
  }

  /** A repeated delivery of the same webhook leaves the state it left. */
  lemma WebhookIdempotent(orders: map<Id, Order>, log: seq<Id>, payload: WebhookPayload)
    ensures AfterWebhook(AfterWebhook(orders, log, payload), log, payload) == AfterWebhook(orders, log, payload)
  {
    match FirstWithRef(orders, log, payload.orderRef)
    case None =>
    case Some(id) =>
      var c := Confirmed(orders[id], payload.paymentId);
      FirstWithRefStable(orders, log, payload.orderRef, id, c);
      assert Confirmed(c, payload.paymentId) == c;
  }

  /** Checkout stores payment details only together with a completed payment. */
  predicate PaidWhenDetailed(o: Order) {
    o.paymentDetails.Some? ==> o.paymentStatus == "complete"
  }

  lemma CheckoutPaysWithDetails(o: Order, user: Id, items: seq<Carts.CartItem>, req: Checkout, now: int, paymentId: string)
    ensures PaidWhenDetailed(Placed(user, items, req, now))
    ensures PaidWhenDetailed(o) ==> PaidWhenDetailed(Revised(o, req))
    ensures PaidWhenDetailed(Confirmed(o, paymentId))
  {
  }

  /** So, while only checkout and the webhook have written the orders, the
      webhook never changes an order whose payment is not complete: it only
      re-confirms orders checkout already marked paid. */
  lemma WebhookLeavesUnpaidOrders(orders: map<Id, Order>, log: seq<Id>, payload: WebhookPayload)
    requires forall id :: id in orders ==> PaidWhenDetailed(orders[id])
    ensures forall id :: id in orders && orders[id].paymentStatus != "complete" ==>
      AfterWebhook(orders, log, payload)[id] == orders[id]
  {
  }

  // ---------------------------------------------------------------------
  // Lookups

  /** `getOrderById`. */
  function GetOrderById(orders: map<Id, Order>, id: Id): (r: (Reply, Option<Order>))
    ensures id !in orders <==> r == (Reply(404, "Order not Found"), None)
    ensures id in orders ==> r.0.code == 200 && r.1 == Some(orders[id])
  {
    if id in orders then (Reply(200, "Order fetched successfully"), Some(orders[id]))
    else (Reply(404, "Order not Found"), None)
  }

  /** `getOrderByUser`: the user's orders, newest first. */
  function GetOrderByUser(orders: map<Id, Order>, log: seq<Id>, user: Id): (r: seq<Id>)
    requires NoDup(log)
    ensures forall id :: id in r <==> id in log && id in orders && orders[id].user == user
    ensures NewestFirst(log, r)
  {
    var mine := (id: Id) => id in orders && orders[id].user == user;
    LatestSelects(log, mine);
    LatestNewestFirst(log, mine);
    Latest(log, mine)
  }

  /** What `createPaymentWithRazorpay` asks the gateway to create: the
      amount in paise, the currency and the receipt. An order without a
      total yields no amount. */
  datatype GatewayOrder = GatewayOrder(amount: Option<int>, currency: string, receipt: Id)

  function PaymentIntent(orders: map<Id, Order>, orderId: Option<Id>): (r: (Reply, Option<GatewayOrder>))
    ensures !Resolves(orders, orderId) <==> r == (Reply(404, "Order not Found"), None)
    ensures Resolves(orders, orderId) ==>
      && r.0.code == 200 && r.1.Some?
      && r.1.value.receipt == orderId.value && r.1.value.currency == "INR"
      && (orders[orderId.value].totalAmount.Some? <==> r.1.value.amount.Some?)
      && (r.1.value.amount.Some? ==> r.1.value.amount.value == 100 * orders[orderId.value].totalAmount.value)
  {
    if !Resolves(orders, orderId) then (Reply(404, "Order not Found"), None)
    else
      var id := orderId.value;
      var amount := match orders[id].totalAmount
        case Some(t) => Some(t * 100)
        case None => None;
      (Reply(200, "Razorpay order and payment created successfully"), Some(GatewayOrder(amount, "INR", id)))
  }

  // ---------------------------------------------------------------------
  // The order collection

  class OrderStore {
    var orders: map<Id, Order>
    /** Order ids in creation order (what `createdAt` sorts by). */
    var created: seq<Id>

    ghost predicate Valid()
      reads this
    {
      NoDup(created) && forall id :: id in created <==> id in orders
    }

    constructor ()
      ensures Valid() && orders == map[] && created == []
    {
      orders := map[];
      created := [];
    }

    /** `createOrUpdateOrder` for `user`; `freshId` is the id a new order
        gets and `now` its creation time. */
    method CreateOrUpdateOrder(user: Id, req: Checkout, carts: Carts.CartStore, freshId: Id, now: int)
      returns (reply: Reply)
      requires Valid() && carts.Valid()
      requires freshId !in orders
      modifies this, carts
      ensures Valid() && carts.Valid()
      // checkout with a missing or empty cart is refused and changes nothing
      ensures old(carts.ItemsOf(user)) == [] ==>
        && reply == Reply(400, "Cart is empty")
        && orders == old(orders) && created == old(created) && carts.carts == old(carts.carts)
      ensures old(carts.ItemsOf(user)) != [] ==>
        && reply == Reply(200, "Order created or updated successfully")
        // an orderId naming an order updates that order
        && (Resolves(old(orders), req.orderId) ==>
              && orders == old(orders)[req.orderId.value := Revised(old(orders)[req.orderId.value], req)]
              && created == old(created))
        // otherwise a new order is made from the cart's items
        && (!Resolves(old(orders), req.orderId) ==>
              && orders == old(orders)[freshId := Placed(user, old(carts.ItemsOf(user)), req, now)]
              && created == old(created) + [freshId])
        // the cart is emptied exactly when payment details came with the request
        && carts.carts == if req.paymentDetails.Some? then old(carts.carts)[user := []] else old(carts.carts)
    {
      var items := carts.ItemsOf(user);
      if items == [] {
        return Reply(400, "Cart is empty");
      }
      var target := CheckoutTarget(orders, req.orderId);
      if target.Some? {
        var id := target.value;
        orders := orders[id := Revised(orders[id], req)];
      } else {
        orders := orders[freshId := Placed(user, items, req, now)];
        created := created + [freshId];
      }
      if req.paymentDetails.Some? {
        carts.Clear(user);
      }
      reply := Reply(200, "Order created or updated successfully");
    }

    /** `handleRazorpayWebhook`. `hmac(secret, body)` is the hex HMAC-SHA256
        digest of the serialised body `rawBody`; `body` is the same body as
        the handler reads it. Reading a field through a missing object
        throws, which the handler answers with 500. */
    method HandleRazorpayWebhook(
      rawBody: string, signature: Option<string>, secret: string,
      hmac: (string, string) -> string, body: WebhookBody)
      returns (reply: Reply)
      requires Valid()
      modifies this
      ensures Valid() && created == old(created)
      ensures signature != Some(hmac(secret, rawBody)) ==>
        reply == Reply(400, "Invalid signature") && orders == old(orders)
      ensures signature == Some(hmac(secret, rawBody)) && (body.entity.None? || body.entity.value.order.None?) ==>
        reply == InternalError && orders == old(orders)
      ensures signature == Some(hmac(secret, rawBody)) && body.entity.Some? && body.entity.value.order.Some? ==>
        reply == Reply(200, "Webhook processed successfully") &&
        orders == AfterWebhook(old(orders), created,
                               WebhookPayload(body.entity.value.id, body.entity.value.order.value))
    {
      var digest := hmac(secret, rawBody);
      if signature != Some(digest) {
        return Reply(400, "Invalid signature");
      }
      if body.entity.None? || body.entity.value.order.None? {
        return InternalError;
      }
      var payload := WebhookPayload(body.entity.value.id, body.entity.value.order.value);
      var target := FirstWithRef(orders, created, payload.orderRef);
      if target.Some? {
        var id := target.value;
        orders := orders[id := Confirmed(orders[id], payload.paymentId)];
      }
      reply := Reply(200, "Webhook processed successfully");
    }
  }
}

=== FILE: products.dfy ===
/** The product catalogue and the validation done by `createProduct`. */
module Products {
  import opened Common

  /** The descriptive form fields of a listing, stored as they arrive. */
  datatype Listing = Listing(
    title: string, subject: string, category: string, condition: string,
    classType: string, price: string, author: string, edition: string,
    description: string, finalPrice: string, shippingCharge: string)

  datatype BankDetails = BankDetails(accountNumber: Option<string>, ifscCode: Option<string>, bankName: Option<string>)

  /** The seller's parsed payout details (`JSON.parse` may give null: None). */
  datatype PayoutDetails = PayoutDetails(upiId: Option<string>, bankDetails: Option<BankDetails>)

  datatype Product = Product(
    listing: Listing,
    seller: Id,
    paymentMode: string,
    paymentDetails: Option<PayoutDetails>,
    images: seq<string>)

  predicate HasUpiId(d: Option<PayoutDetails>) {
    d.Some? && Given(d.value.upiId)
  }

  predicate HasBankAccount(d: Option<PayoutDetails>) {
    && d.Some? && d.value.bankDetails.Some?
    && Given(d.value.bankDetails.value.accountNumber)
    && Given(d.value.bankDetails.value.ifscCode)
    && Given(d.value.bankDetails.value.bankName)
  }

  /** The rejection `createProduct` answers with before anything is stored,
      or None when the request may proceed. */
  function Rejection(imageCount: nat, paymentMode: string, details: Option<PayoutDetails>): (r: Option<Reply>)
    // no image: rejected first, whatever the payment details
    ensures imageCount == 0 ==> r == Some(Reply(400, "Image is required"))
    ensures imageCount > 0 && paymentMode == "UPI" ==>
      (r.None? <==> HasUpiId(details))
    ensures imageCount > 0 && paymentMode == "Bank Account" ==>
      (r.None? <==> HasBankAccount(details))
    // any other payment mode carries no requirement on the details
    ensures imageCount > 0 && paymentMode != "UPI" && paymentMode != "Bank Account" ==> r.None?
    ensures r.Some? ==> r.value.code == 400
  {
    if imageCount == 0 then Some(Reply(400, "Image is required"))
    else if paymentMode == "UPI" && !HasUpiId(details) then
      Some(Reply(400, "UPI id is required for payment"))
    else if paymentMode == "Bank Account" && !HasBankAccount(details) then
      Some(Reply(400, "Bank account details are required for payment"))
    else None
  }

  /** The product collection. */
  class Catalog {
    var products: map<Id, Product>

    constructor ()
      ensures products == map[]
    {
      products := map[];
    }

    /** `createProduct`: `files` are the uploaded files in request order,
        `upload` gives the secure URL the image host returns for one, and
        `freshId` is the identifier the database assigns to the new document. */
    method CreateProduct(
      seller: Id, listing: Listing, paymentMode: string, details: Option<PayoutDetails>,
      files: seq<string>, upload: string -> string, freshId: Id)
      returns (reply: Reply)
      requires freshId !in products
      modifies this
      ensures Rejection(|files|, paymentMode, details).Some? ==>
        reply == Rejection(|files|, paymentMode, details).value && products == old(products)
      ensures Rejection(|files|, paymentMode, details).None? ==>
        && reply == Reply(201, "Product created successfully")
        && products.Keys == old(products).Keys + {freshId}
        && (forall k :: k in old(products) ==> products[k] == old(products)[k])
        && products[freshId].seller == seller
        && products[freshId].listing == listing
        && products[freshId].paymentMode == paymentMode
        && products[freshId].paymentDetails == details
        && |products[freshId].images| == |files|
        && (forall i :: 0 <= i < |files| ==> products[freshId].images[i] == upload(files[i]))
    {
      var rejection := Rejection(|files|, paymentMode, details);
      if rejection.Some? {
        return rejection.value;
      }
      var urls := seq(|files|, i requires 0 <= i < |files| => upload(files[i]));
      products := products[freshId := Product(listing, seller, paymentMode, details, urls)];
      reply := Reply(201, "Product created successfully");
    }
  }
}

=== FILE: wishlists.dfy ===
/** Wishlists: one list of product ids per user, used as a set. */
module Wishlists {
  import opened Common
  import Products

  /** `products.includes(p) ? products : [...products, p]`. */
  function WithProduct(products: seq<Id>, p: Id): (r: seq<Id>)
    ensures p in r
    ensures p in products ==> r == products
    ensures p !in products ==> r == products + [p]
  {
    if p in products then products else products + [p]
  }

  /** Adding never creates a duplicate. */
  lemma WithProductKeepsNoDup(products: seq<Id>, p: Id)
    requires NoDup(products)
    ensures NoDup(WithProduct(products, p))
  {
  }

  /** `products.filter(id => id !== p)`. */
  function Without(products: seq<Id>, p: Id): (r: seq<Id>)
    ensures |r| <= |products|
    ensures p !in r
    ensures forall x :: x in r ==> x in products
  {
    if products == [] then []
    else (if products[0] == p then [] else [products[0]]) + Without(products[1..], p)
  }

  /** Removal deletes every occurrence of p and nothing else. */
  lemma {:induction false} WithoutSelects(products: seq<Id>, p: Id)
    ensures forall x :: x in Without(products, p) <==> x in products && x != p
  {
    if products != [] {
      WithoutSelects(products[1..], p);
      assert products == [products[0]] + products[1..];
    }
  }

  /** Removal keeps the remaining ids in their order. */
  lemma {:induction false} WithoutAppend(a: seq<Id>, b: seq<Id>, p: Id)
    ensures Without(a + b, p) == Without(a, p) + Without(b, p)
  {
    if a == [] {
      assert a + b == b;
    } else {
      assert (a + b)[1..] == a[1..] + b;
      WithoutAppend(a[1..], b, p);
    }
  }

  lemma {:induction false} WithoutKeepsNoDup(products: seq<Id>, p: Id)
    requires NoDup(products)
    ensures NoDup(Without(products, p))
  {
    if products != [] {
      var t := products[1..];
      assert NoDup(t) by {
        forall i, j | 0 <= i < j < |t| ensures t[i] != t[j] { assert t[i] == products[i + 1] && t[j] == products[j + 1]; }
      }
      WithoutKeepsNoDup(t, p);
      WithoutSelects(t, p);
      assert products[0] !in t;
    }
  }

  /** `getWishlistByUser`: a user without a wishlist is answered with
      status 404 and an empty list. */
  function GetWishlistByUser(wishlists: map<Id, seq<Id>>, user: Id): (r: (Reply, seq<Id>))
    ensures user !in wishlists ==> r == (Reply(404, "Wishlist is empty"), [])
    ensures user in wishlists ==> r.0.code == 200 && r.1 == wishlists[user]
  {
    if user in wishlists then (Reply(200, "User wishlist get successfully"), wishlists[user])
    else (Reply(404, "Wishlist is empty"), [])
  }

  /** The wishlist collection, keyed by its owner. */
  class WishlistStore {
    var wishlists: map<Id, seq<Id>>

    /** No wishlist holds a product twice. */
    ghost predicate Valid()
      reads this
    {
      forall u :: u in wishlists ==> NoDup(wishlists[u])
    }

    constructor ()
      ensures Valid() && wishlists == map[]
    {
      wishlists := map[];
    }

    /** `addToWishlist`. */
    method AddToWishlist(user: Id, productId: Id, catalog: Products.Catalog) returns (reply: Reply)
      requires Valid()
      modifies this
      ensures Valid()
      ensures productId !in catalog.products ==>
        reply == Reply(404, "Product not found") && wishlists == old(wishlists)
      ensures productId in catalog.products ==>
        && reply == Reply(200, "Item added to wishlist.")
        && wishlists == old(wishlists)[user := WithProduct(if user in old(wishlists) then old(wishlists)[user] else [], productId)]
    {
      if productId !in catalog.products {
        return Reply(404, "Product not found");
      }
      // a missing wishlist is created empty
      var products := if user in wishlists then wishlists[user] else [];
      if productId !in products {
        products := products + [productId];
      }
      WithProductKeepsNoDup(if user in wishlists then wishlists[user] else [], productId);
      wishlists := wishlists[user := products];
      reply := Reply(200, "Item added to wishlist.");
    }

    /** `removeFromWishlist`. */
    method RemoveFromWishlist(user: Id, productId: Id) returns (reply: Reply)
      requires Valid()
      modifies this
      ensures Valid()
      ensures user !in old(wishlists) ==>
        reply == Reply(404, "Wishlist not found for this user") && wishlists == old(wishlists)
      ensures user in old(wishlists) ==>
        reply == Reply(200, "Item removed from wishlist.") &&
        wishlists == old(wishlists)[user := Without(old(wishlists)[user], productId)]
    {
      if user !in wishlists {
        return Reply(404, "Wishlist not found for this user");
      }
      WithoutKeepsNoDup(wishlists[user], productId);
      wishlists := wishlists[user := Without(wishlists[user], productId)];
      reply := Reply(200, "Item removed from wishlist.");
    }
  }
}
